=== FILE: README.md ===
# Simulation jobs of the building HVAC dashboard, in Dafny

The dashboard lets a user run EnergyPlus on a building model and plot the resulting zone air
temperature. The user either uploads a model (an IDF file) or gives the three sizes of a
rectangular box, and always uploads a weather file (EPW). The backend does three things:

- `POST /simulate` prepares a job directory `/tmp/<run id>` and schedules one background run.
- The background run invokes the engine into that directory and writes the completion marker
  `done.txt` only when the run is clean.
- `GET /results/<run id>` reads the directory. It answers with the temperature series or with
  the first of its fixed-order checks that fails.

The React page validates the form, posts it, and polls the results every five seconds.

This project models all of that decision logic as pure functions over immutable data:

- `wrappers.dfy`: `Option`, and an order-preserving filter `Somes` with the positions it keeps.
- `text.dfy`: the Python and JavaScript string operations the code relies on:
  - Python's universal-newline reading of a text file;
  - substring containment and `s[:n]`;
  - `join`, and JavaScript's `split` with a one-character separator;
  - JavaScript's `trim`, and Python's `str` of an integer.
- `csv.dfy`: Python's `csv` reader in its default dialect, as a character state machine. It
  comes with a minimal-quoting writer as its partner.
- `workspace.dfy`: a job directory as a snapshot: missing, or present with its files in
  listing order.
- `results.dfy`: `get_results`, including `csv.DictReader`'s record-to-dictionary step.
- `runner.dfy`: `run_simulation`.
- `builder.dfy`: the box faces of `build_model`, their geometry, and the weather-file binding.
- `simulate.dfy`: the `simulate` handler.
- `frontend.dfy`: the page's state machine and its own CSV reader `parseEnergyPlusCSV`.
- `lifecycle.dfy`: properties that span the pieces:
  - a clean run is readable;
  - the query ignores the marker;
  - the runner and the query check in opposite orders;
  - timeouts look like running jobs to the page;
  - the page's reader agrees with the server's on plain CSV.

Calls into code outside the model become parameters:

- the process runs, the clock and the operating system;
- OpenStudio's weather loading and binding, its translator, and saving its output;
- number parsing, given as `parse: string -> Option<real>`;
- the run identifier.

Three behaviours of the code are worth knowing before reading the model:

- The result query never reads `done.txt`. The marker is written but consulted by nobody.
- A run that crashed or timed out without output is not reported as failed. The query answers
  404 "CSV output not found" to any directory without a CSV and without a severe error.
  This covers a run that timed out, failed to start, exited non-zero, or lost its input file.
  The page treats 404 as "still running", so it polls forever in those cases
  (`Lifecycle.TimeoutLooksRunning`).
- `build_model` does not check that the sizes are positive. `simulate` only checks that they
  are present.

## Model

| member | source | states |
|---|---|---|
| Text.SplitThenJoin | src/App.js:134 | joining the pieces of a split on one character with that character gives the text back |
| Text.JoinThenSplit | src/App.js:140 | splitting a join of at least one separator-free piece gives the pieces back (joining no pieces gives "", which splits into one empty piece) |
| Text.TrimEmptyIffBlank | src/App.js:134 | a line is dropped by the blank-line filter exactly when all of its characters are white space |
| Text.DecimalRoundTrip | backend/app/runner.py:50 | the decimal spelling of an exit code reads back as that number |
| Text.UniversalNewlines | backend/app/main.py:104-105 | the text read from the log holds no carriage return and is never longer than the bytes on disk |
| Text.ReadAsItIs | backend/app/main.py:104-105 | a log without carriage returns is read exactly as written |
| Text.CrLfIsOneBreak | backend/app/main.py:104-105 | a carriage return followed by a line feed is read as one line break |
| Text.LoneCrIsOneBreak | backend/app/main.py:104-105 | a carriage return not followed by a line feed is read as a line break too |
| Csv.Parse | backend/app/main.py:121-123 | the reader returns no record exactly when the file is empty; any other text yields at least one record |
| Csv.RoundTrip | backend/app/main.py:121-123 | the reader gives back exactly the records a minimal-quoting writer wrote: a field with commas, quotes or line breaks stays one field |
| Csv.QuotedCommaIsOneField | backend/app/main.py:121-123 | a line with a plain time cell and a quoted value holding a comma (a temperature written with a decimal comma) is read as one record of exactly two cells |
| Csv.PlainLinesParse | backend/app/main.py:121-123 | lines without quotes or line breaks are read one record per line, each being the line split at its commas |
| Workspace.Lookup | backend/app/main.py:103-113 | a file is found exactly when its name is listed, and what is found is that file's content |
| Workspace.Put | backend/app/runner.py:65-66 | the written file is in the directory; a new name is appended at the end of the listing, an existing one is overwritten in place |
| Workspace.PutLookup | backend/app/runner.py:65-66 | after writing, the file has the new content and every other file reads as before |
| Results.ErrorLog | backend/app/main.py:103-105 | the log is read exactly when eplusout.err is in the directory, and what is read carries no carriage return |
| Results.Excerpt | backend/app/main.py:106-110 | the excerpt is a prefix of the log whose length is the smaller of the log's and 1000, so a short log is kept whole |
| Results.LocateColumn | backend/app/main.py:133-134 | the column found is the first header containing the marker; there is none exactly when no header contains it |
| Results.NonBlank | backend/app/main.py:143 | the records kept are exactly the non-empty ones |
| Results.NonBlankInOrder | backend/app/main.py:143 | the records kept are the non-empty ones at increasing positions, each one once, and no non-empty record is missed |
| Results.RowDict | backend/app/main.py:123 | a record's dictionary has exactly the header names as keys |
| Results.CellOfColumn | backend/app/main.py:145-153 | with distinct header names, column j's entry is cell j, or null for a record too short to reach it |
| Results.ReadRow | backend/app/main.py:143-154 | a record whose temperature entry is null (too short to reach the column, so `float(None)` raises an uncaught error) gives no value; a temperature that does not parse is rejected with its text; otherwise the sample is the parsed temperature with the time entry |
| Results.ReadRowByPosition | backend/app/main.py:143-154 | with distinct header names, reading through the dictionary is reading cell by position: too short a record fails, an unparsable cell is rejected, and a missing time cell becomes null |
| Results.Collect | backend/app/main.py:142-156 | a series comes back only when every record converts, and then with one sample per record in order; otherwise the first failure, with no partial list |
| Results.Extract | backend/app/main.py:120-156 | "empty" exactly when there is no header; "columns not found" with every header exactly when a marker matches no header; a series has one sample per data record |
| Results.SeriesOfWellFormedCsv | backend/app/main.py:142-156 | for complete numeric records, the series is one sample per record in file order with the time cell copied verbatim |
| Results.OneBadValueFailsAll | backend/app/main.py:144-150 | with distinct column names and every data record complete, one unparsable temperature anywhere makes the whole answer a bad-value error |
| Results.CollectFirstFailure | backend/app/main.py:143-150 | the first record that does not convert decides the outcome, whatever the records after it hold |
| Results.FirstFailingRecordDecides | backend/app/main.py:143-150 | with distinct column names, the first data record whose temperature is missing or unparsable decides the answer: a record too short to reach the column gives the uncaught error, an unparsable cell the bad-value error with that cell's text |
| Results.Query | backend/app/main.py:88-156 | the checks run in order: no directory gives 404 with its path; engine errors exactly when the directory holds a log with a severe error, with the log's excerpt, even when the CSV is fine; no CSV gives 404 with the file listing; otherwise the answer is exactly what reading the CSV gives |
| Runner.ResolveExe | backend/app/runner.py:15 | an empty override falls through to the environment variable, which is used even when empty; the default path is used only when neither is set |
| Runner.Command | backend/app/runner.py:31-37 | the command is exactly the executable, `-w` weather, `-d` directory, `-r`, model |
| Runner.Message | backend/app/runner.py:27-73 | the timeout raises its fixed sentence; every other failure is re-raised behind "Simulation failed: ", with the missing input's path, the exit code, the missing CSV's path or the log excerpt in the source's wording |
| Runner.MessagePrefix | backend/app/runner.py:70-73 | every failure but the timeout carries the "Simulation failed: " prefix |
| Runner.TimeoutTextIsTimeout | backend/app/runner.py:70-71 | the timeout text is produced by the timeout and by nothing else |
| Runner.Judge | backend/app/runner.py:48-63 | a finished run is clean exactly when it exited 0, wrote the CSV and logged no severe error; a non-zero exit is reported with its code first, then a missing CSV with its path, then a severe log with its first 1000 characters |
| Runner.RunSimulation | backend/app/runner.py:8-73 | a failing probe raises its reason; a missing model, then a missing weather file, raises with its path; the engine is launched exactly when neither happens; a launch failure, the timeout and each judged failure raise their own message; the marker is written exactly on a clean run, which returns the directory; failed runs leave the directory as the engine left it |
| ModelBuilder.AsWrittenIsBox | backend/app/model_builder.py:15-22 | six faces of four vertices, every vertex a corner of the box, the faces in the planes z=0, z=H, x=0, x=L, y=0, y=W in order |
| ModelBuilder.AsWrittenClosed | backend/app/model_builder.py:15-22 | for positive sizes no face repeats a vertex and each of the eight corners is on exactly three faces |
| ModelBuilder.AsWrittenDegenerateIffFlat | backend/app/model_builder.py:5-28 | the sizes are used unchecked: every face handed to OpenStudio has four distinct vertices exactly when no size is zero |
| ModelBuilder.AsWrittenTopFacesInward | backend/app/model_builder.py:16-17 | for positive sizes, the top face is wound like the floor, so its normal points down into the box |
| ModelBuilder.FacesIsBox | backend/app/model_builder.py:15-22 | the corrected table has the same shape, corners and planes |
| ModelBuilder.FacesClosed | backend/app/model_builder.py:15-22 | the corrected table is closed in the same way |
| ModelBuilder.FacesOutward | backend/app/model_builder.py:15-22 | for positive sizes, with the corrected top face, every face's normal points out of the box |
| ModelBuilder.BuildModel | backend/app/model_builder.py:3-60 | one outdoor surface per face of the table as written, in order, with exactly its vertices and the single-layer construction; the output variable is keyed to the zone; with no weather path nothing is bound; otherwise "Failed to load EPW file" is raised before "Failed to set weather file in OpenStudio model" |
| ModelBuilder.BuiltSurfaceOrientation | backend/app/model_builder.py:15-33 | for positive sizes, in a model built as written, the floor and the four walls face out of the box while the roof faces into it |
| ModelBuilder.BuildCorrectedModel | backend/app/model_builder.py:3-60 | the builder with the corrected roof fails exactly when the one as written does, in the same way, and otherwise differs from it only in the roof's vertices |
| ModelBuilder.CorrectedSurfacesOutward | backend/app/model_builder.py:15-33 | for positive sizes, every surface of a model built with the corrected roof faces out of the box |
| Simulate.TaskFor | backend/app/main.py:37-42 | the job directory is /tmp/<id>, and the model and weather paths are inside it |
| Simulate.SynthesisFailure | backend/app/main.py:64-83 | the synthesised model fails, in call order, with the text of an exception raised while creating the model's objects, then on weather loading, then on binding, then with the text of an exception raised by the translator, then with the translator's first message; it succeeds exactly when none of these happen |
| Simulate.Submit | backend/app/main.py:27-86 | accepted exactly when the writes work and either a model is uploaded or all three sizes are given and no step of the synthesis raises or reports an error; then exactly one run is scheduled, with the job's paths; 400 comes after the weather file was written; a failed model write answers 500 with its reason, and a failed synthesis answers 500 with the synthesis message and leaves no input.idf |
| Simulate.UploadIgnoresDimensions | backend/app/main.py:51-57 | with an uploaded model, the sizes and everything about synthesis make no difference |
| Frontend.DetailOr | src/App.js:70 | a missing or empty detail gives exactly the fallback text, a non-empty detail is kept as it is |
| Frontend.CanRun | src/App.js:158-161 | the button is enabled exactly when the page is idle and validation would start an upload |
| Frontend.StartRun | src/App.js:33-47 | a missing weather file is reported before a missing model, and either leaves the status alone; otherwise the page starts uploading what the form holds |
| Frontend.EnabledClickPosts | src/App.js:158-161 | when the button is enabled the validation messages cannot occur |
| Frontend.Settle | src/App.js:66-70 | success records the run id and goes to running; failure goes to error with the detail or the fallback |
| Frontend.Poll | src/App.js:107-131 | polls act only while running with a run id; non-empty data is plotted as it came and completes; 404 and empty data change nothing; any other failure is an error carrying the server's detail or "Error fetching results" |
| Frontend.Reset | src/App.js:145-156 | the ten setters of `resetSimulation` give back exactly the page as first rendered, `Frontend.Initial`, which holds the `useState` values of App.js lines 15-24 |
| Frontend.Step | src/App.js:26-161 | picking files and editing sizes leave status, run id, plot and progress alone; a click while the button is disabled does nothing, and an enabled one starts uploading with no error; a submission answer only counts while uploading |
| Frontend.StepTransition | src/App.js:26-161 | the status moves only idle to uploading to running to completed, with error from uploading or running, and back to idle only from the end states |
| Frontend.RunValid | src/App.js:14-161 | on every reachable page, something is plotted exactly when completed, and idle or uploading pages carry no run id |
| Frontend.EndStatesStay | src/App.js:107-131 | completed and error pages ignore poll and submission answers |
| Frontend.IndexOf | src/App.js:136 | the first exact match, and none exactly when absent |
| Frontend.ParseLines | src/App.js:135-142 | fails exactly when there is no header line; a non-empty result needs an exact "Date/Time" header and a "Zone Air Temperature" header |
| Frontend.ParseEnergyPlusCsv | src/App.js:133-143 | throws exactly when there is no non-blank line; a non-empty result needs an exact "Date/Time" header and a "Zone Air Temperature" header |
| Frontend.PointsInOrder | src/App.js:139-142 | the points come from increasing lines, each is what its line reads as, and every line with a numeric value contributes |
| Frontend.ParsedPointsInOrder | src/App.js:133-143 | once both columns are found, the result is the numeric points of the lines after the header, read with those columns, at most one per line |
| Frontend.NonBlankLinesSpec | src/App.js:134 | the blank-line filter keeps, in order, exactly the lines that are not blank once trimmed |
| Wrappers.SomeIndicesSpec | src/App.js:142 | dropping the non-numbers keeps the order and every numeric point |
| Lifecycle.CompletedRunIsReadable | backend/app/runner.py:52-68 | after a run that wrote the marker, the query passes its log and CSV checks and reads the engine's CSV |
| Lifecycle.QueryIgnoresMarker | backend/app/main.py:88-118 | once the query reaches the CSV, adding done.txt changes nothing |
| Lifecycle.OppositeCheckOrder | backend/app/runner.py:52-63 | with a severe log and no CSV, the run reports the missing CSV while the query reports the engine errors |
| Lifecycle.Answer | src/App.js:112-126 | a series arrives as data; every other outcome arrives as a failure carrying its status code and, where fixed, its detail |
| Lifecycle.TimeoutLooksRunning | backend/app/main.py:113-118 | a directory without CSV or severe log answers 404, and the page stays as it was |
| Lifecycle.EmptySeriesLooksRunning | src/App.js:113-117 | an empty series leaves the page as it was |
| Lifecycle.AcceptedJobInputs | backend/app/runner.py:25-27 | an accepted job whose files are in place passes the input checks when the model was uploaded or saved |
| Lifecycle.UnsavedModelFailsSilently | backend/app/main.py:79 | an unsaved synthesised model makes the run fail on the missing input.idf, while the query keeps answering 404 |
| Lifecycle.NaiveReaderAgrees | src/App.js:133-143 | on plain, complete CSV whose time and temperature columns both readers find alike, whose temperatures Python's `float` reads, and where JavaScript's `parseFloat` reads every temperature cell as `float` does, the page's reader and the server's reader give the same series |

## Findings

| source | as written | input that shows it | evidently intended | confidence | as-written member | corrected member |
|---|---|---|---|---|---|---|
| backend/app/model_builder.py:17 | the top face lists its corners in the floor's order (0,0,H), (0,W,H), (L,W,H), (L,0,H) | L = W = H = 1: the first two edges give the normal (0, 0, -1), pointing into the box, while the other five faces point out | the top face wound counter-clockwise seen from above, (0,0,H), (L,0,H), (L,W,H), (0,W,H), so that its normal points up and out | medium, not executed | ModelBuilder.BuiltSurfaceOrientation | ModelBuilder.CorrectedSurfacesOutward |

`ModelBuilder.BuildModel` builds from the table as written, `ModelBuilder.FacesAsWritten`, and
`ModelBuilder.AsWrittenTopFacesInward` shows its roof facing in. `ModelBuilder.BuildCorrectedModel`
builds from the corrected table, `ModelBuilder.Faces`, whose faces all point out
(`ModelBuilder.FacesOutward`). The two builders fail in exactly the same cases with the same
message, so `Simulate.SynthesisFailure`, which only looks at whether building failed, is the
same for both. The shape properties are proved for both tables.

## Left out

- The `/status` endpoint: it inspects operating-system processes.
- FastAPI routing, CORS and multipart parsing. Form fields are already typed when `Simulate.Submit` receives them.
- Framework validation answers (422) are not modelled, and neither is an empty form field becoming `None`.
- Real file, process and clock effects. They are the snapshot, `Probe`, `EngineRun` and `Effects` parameters.
- The logging calls.
- OpenStudio's objects beyond the records in `ModelBuilder`, and surface-type or sun-exposure assignment: foreign library.
- ModelBuilder.BuildModel: the object constructors are taken to succeed. When OpenStudio raises a `RuntimeError` in them, for example for a degenerate face (`ModelBuilder.AsWrittenDegenerateIffFlat`), the handler's answer is modelled by the `buildRaised` effect of `Simulate.SynthesisFailure`. Which inputs make OpenStudio raise is foreign-library behaviour and is not modelled.
- Simulate.SynthesisFailure: only `RuntimeError` and `OSError`, which the handler catches, are modelled. Any other exception from the OpenStudio calls would escape as a bare 500.
- The translated IDF text is a parameter.
- Python's `float` and JavaScript's `parseFloat`: floating point. Each is a `string -> Option<real>` parameter.
  - For JavaScript's `parseFloat`, `None` stands for NaN.
  - For Python's `float`, `None` stands for a `ValueError`.
  - Infinities and NaN are not represented.
- Results.Extract: a temperature cell such as "nan" or "inf", which Python's `float` accepts, is not modelled. The program would put that value in the series. The framework's JSON rendering refuses NaN and infinities, so the answer would be a bare 500 without detail, and the page would show "Error fetching results". The model instead answers a bad-value error with a detail when `parse` rejects such a cell. This reading of the framework's rendering is outside the modelled files.
- Lifecycle.NaiveReaderAgrees: assumes that `parseFloat` and `float` read every temperature cell alike. They differ on cells such as "1_0", "12abc" or "inf", where one reader accepts what the other rejects or reads differently.
- Results.Query: the log is modelled as already-decoded characters. A log that is not valid in the locale's encoding raises while being read, which is not modelled; the query would answer a bare 500. Python's universal-newline reading is modelled.
- Results.Query: the CSV is also taken as already-decoded text that can be opened. The 500 "Error processing results: …" answer of backend/app/main.py:158-162 is not modelled. That answer comes from an `OSError` or `ValueError` while reading it, such as a file that cannot be opened or is not valid in the locale's encoding.
- Runner.Judge: the log is modelled as already-decoded characters. A log that is not valid in the locale's encoding raises while being read, which is not modelled; the run would end with "Simulation failed: " and the decoding error. Python's universal-newline reading is modelled.
- The Python csv module's NUL-byte and field-size-limit errors, and its `restkey` entry for an overlong record. That entry's key is `None`, which no column name matches.
- The uuid generation: the run id is a parameter.
- Asynchrony: background scheduling, the interval timer, and responses racing each other. An answer to the submission is taken only while uploading.
- React rendering, Plotly's axis range and the upload progress percentage.
- `src/services/api.js`: the page does not use it.
- Runner.RunSimulation: the missing-CSV message uses the directory as passed. Python's `Path` would normalise a trailing or doubled slash, which `/tmp/<id>` never has.
- Runner.RunSimulation: the probe's and the launch's exception texts are parameters.
- Lifecycle.Answer: the details built with Python's `repr` (the header list, the rejected value) are a parameter, not spelled out.
- Lifecycle.Answer: an uncaught `TypeError` for a record too short to reach the temperature column arrives with no detail.
- Frontend.ParseEnergyPlusCsv: the page never calls it. It is modelled as written.
- Frontend.Poll: the server's `detail` is taken to be text. A 422 answer, whose detail is a list, is not modelled.

=== FILE: builder.dfy ===
/**
 * The synthesised box model (`build_model` in backend/app/model_builder.py): six rectangular
 * faces spanning length × width × height, one space in one thermal zone, one single-layer
 * construction on every face, an hourly zone air temperature output, and an optional weather
 * file binding. The OpenStudio objects are records here; loading and binding the weather file
 * are parameters that say whether the library call succeeded.
 */
module ModelBuilder {
  import opened Wrappers

  datatype Point = Point(x: real, y: real, z: real)

  // ---------------------------------------------------------------------------------------
  // The face table.

  /** The six faces exactly as listed: floor, top, the x = 0 and x = L walls, then the y = 0 and
      y = W walls. The top face repeats the floor's vertex order. */
  function FacesAsWritten(L: real, W: real, H: real): seq<seq<Point>> {
    [ [Point(0.0, 0.0, 0.0), Point(0.0, W, 0.0), Point(L, W, 0.0), Point(L, 0.0, 0.0)],
      [Point(0.0, 0.0, H), Point(0.0, W, H), Point(L, W, H), Point(L, 0.0, H)],
      [Point(0.0, 0.0, 0.0), Point(0.0, 0.0, H), Point(0.0, W, H), Point(0.0, W, 0.0)],
      [Point(L, 0.0, 0.0), Point(L, W, 0.0), Point(L, W, H), Point(L, 0.0, H)],
      [Point(0.0, 0.0, 0.0), Point(L, 0.0, 0.0), Point(L, 0.0, H), Point(0.0, 0.0, H)],
      [Point(0.0, W, 0.0), Point(0.0, W, H), Point(L, W, H), Point(L, W, 0.0)] ]
  }

  /** The top face wound the other way round, so that it faces up and out like the other five. */
  function Roof(L: real, W: real, H: real): seq<Point> {
    [Point(0.0, 0.0, H), Point(L, 0.0, H), Point(L, W, H), Point(0.0, W, H)]
  }

  /** The face table with the top face's winding corrected; `BuildCorrectedModel` uses this one. */
  function Faces(L: real, W: real, H: real): seq<seq<Point>> {
    FacesAsWritten(L, W, H)[1 := Roof(L, W, H)]
  }

  /** The eight corners of the box. */
  function Corners(L: real, W: real, H: real): seq<Point> {
    [ Point(0.0, 0.0, 0.0), Point(L, 0.0, 0.0), Point(0.0, W, 0.0), Point(L, W, 0.0),
      Point(0.0, 0.0, H), Point(L, 0.0, H), Point(0.0, W, H), Point(L, W, H) ]
  }

  predicate IsCorner(p: Point, L: real, W: real, H: real) {
    (p.x == 0.0 || p.x == L) && (p.y == 0.0 || p.y == W) && (p.z == 0.0 || p.z == H)
  }

  /** The plane face `i` lies in: z = 0, z = H, x = 0, x = L, y = 0, y = W in table order. */
  predicate OnPlane(i: nat, p: Point, L: real, W: real, H: real) {
    if i == 0 then p.z == 0.0
    else if i == 1 then p.z == H
    else if i == 2 then p.x == 0.0
    else if i == 3 then p.x == L
    else if i == 4 then p.y == 0.0
    else p.y == W
  }

  /** The shape the table promises: six quadrilaterals whose vertices are corners of the box and
      which lie in the six bounding planes in order. */
  predicate BoxFaces(faces: seq<seq<Point>>, L: real, W: real, H: real) {
    && |faces| == 6
    && (forall i :: 0 <= i < 6 ==> |faces[i]| == 4)
    && (forall i, k :: 0 <= i < 6 && 0 <= k < 4 ==> IsCorner(faces[i][k], L, W, H))
    && (forall i, k :: 0 <= i < 6 && 0 <= k < 4 ==> OnPlane(i, faces[i][k], L, W, H))
  }

  lemma AsWrittenIsBox(L: real, W: real, H: real)
    ensures BoxFaces(FacesAsWritten(L, W, H), L, W, H)
  {
  }

  lemma FacesIsBox(L: real, W: real, H: real)
    ensures BoxFaces(Faces(L, W, H), L, W, H)
  {
    AsWrittenIsBox(L, W, H);
  }

  function Indicator(b: bool): nat {
    if b then 1 else 0
  }

  /** How many of the faces have `p` as a vertex. */
  function CountFaces(faces: seq<seq<Point>>, p: Point): (n: nat)
    ensures n <= |faces|
  {
    if |faces| == 0 then 0
    else Indicator(p in faces[0]) + CountFaces(faces[1..], p)
  }

  predicate DistinctVertices(face: seq<Point>) {
    forall a, b :: 0 <= a < b < |face| ==> face[a] != face[b]
  }

  /** For a proper box: no face repeats a vertex, and each corner is shared by exactly three
      faces (the box is closed, every corner is where three planes meet). */
  predicate ClosedBox(faces: seq<seq<Point>>, L: real, W: real, H: real) {
    && (forall i :: 0 <= i < |faces| ==> DistinctVertices(faces[i]))
    && (forall k :: 0 <= k < 8 ==> CountFaces(faces, Corners(L, W, H)[k]) == 3)
  }

  lemma CornersDistinct(L: real, W: real, H: real)
    requires L > 0.0 && W > 0.0 && H > 0.0
    ensures forall a, b :: 0 <= a < b < 8 ==> Corners(L, W, H)[a] != Corners(L, W, H)[b]
  {
  }

  /** The count over six faces, one face at a time. */
  lemma CountSix(faces: seq<seq<Point>>, p: Point)
    requires |faces| == 6
    ensures CountFaces(faces, p) == Indicator(p in faces[0]) + Indicator(p in faces[1])
      + Indicator(p in faces[2]) + Indicator(p in faces[3]) + Indicator(p in faces[4])
      + Indicator(p in faces[5])
  {
    var f1 := faces[1..];
    var f2 := f1[1..];
    var f3 := f2[1..];
    var f4 := f3[1..];
    var f5 := f4[1..];
    assert f5[1..] == [];
    assert CountFaces(f5, p) == Indicator(p in faces[5]);
    assert CountFaces(f4, p) == Indicator(p in faces[4]) + CountFaces(f5, p);
    assert CountFaces(f3, p) == Indicator(p in faces[3]) + CountFaces(f4, p);
    assert CountFaces(f2, p) == Indicator(p in faces[2]) + CountFaces(f3, p);
    assert CountFaces(f1, p) == Indicator(p in faces[1]) + CountFaces(f2, p);
  }

  /** A corner is a vertex of a face exactly when it lies in that face's plane. */
  predicate CornersByPlane(faces: seq<seq<Point>>, L: real, W: real, H: real)
    requires |faces| == 6
  {
    forall i, k :: 0 <= i < 6 && 0 <= k < 8 ==>
      (Corners(L, W, H)[k] in faces[i] <==> OnPlane(i, Corners(L, W, H)[k], L, W, H))
  }

  /** Each corner meets exactly one of each pair of opposite planes, so three faces in all. */
  lemma CornerCounts(faces: seq<seq<Point>>, L: real, W: real, H: real)
    requires L > 0.0 && W > 0.0 && H > 0.0
    requires |faces| == 6 && CornersByPlane(faces, L, W, H)
    ensures forall k :: 0 <= k < 8 ==> CountFaces(faces, Corners(L, W, H)[k]) == 3
  {
    forall k | 0 <= k < 8
      ensures CountFaces(faces, Corners(L, W, H)[k]) == 3
    {
      var c := Corners(L, W, H)[k];
      CountSix(faces, c);
      assert c in faces[0] <==> !(c in faces[1]);
      assert c in faces[2] <==> !(c in faces[3]);
      assert c in faces[4] <==> !(c in faces[5]);
    }
  }

  lemma AsWrittenCornersByPlane(L: real, W: real, H: real)
    requires L > 0.0 && W > 0.0 && H > 0.0
    ensures CornersByPlane(FacesAsWritten(L, W, H), L, W, H)
  {
  }

  lemma FacesCornersByPlane(L: real, W: real, H: real)
    requires L > 0.0 && W > 0.0 && H > 0.0
    ensures CornersByPlane(Faces(L, W, H), L, W, H)
  {
  }

  lemma AsWrittenClosed(L: real, W: real, H: real)
    requires L > 0.0 && W > 0.0 && H > 0.0
    ensures ClosedBox(FacesAsWritten(L, W, H), L, W, H)
  {
    AsWrittenCornersByPlane(L, W, H);
    CornerCounts(FacesAsWritten(L, W, H), L, W, H);
  }

  lemma FacesClosed(L: real, W: real, H: real)
    requires L > 0.0 && W > 0.0 && H > 0.0
    ensures ClosedBox(Faces(L, W, H), L, W, H)
  {
    FacesCornersByPlane(L, W, H);
    CornerCounts(Faces(L, W, H), L, W, H);
  }

  /** Nothing checks the sizes: every face of the table is a proper quadrilateral exactly when no
      size is zero, so a zero size hands OpenStudio a face with a repeated vertex. */
  lemma AsWrittenDegenerateIffFlat(L: real, W: real, H: real)
    ensures (forall i :: 0 <= i < 6 ==> DistinctVertices(FacesAsWritten(L, W, H)[i]))
        <==> L != 0.0 && W != 0.0 && H != 0.0
  {
    var faces := FacesAsWritten(L, W, H);
    if L == 0.0 {
      assert faces[0][0] == faces[0][3];
    } else if W == 0.0 {
      assert faces[0][0] == faces[0][1];
    } else if H == 0.0 {
      assert faces[2][0] == faces[2][1];
    }
  }

  // ---------------------------------------------------------------------------------------
  // Orientation: a face's vertices run counter-clockwise seen from outside, so the normal given
  // by the right-hand rule points away from the box.

  function Sub(a: Point, b: Point): Point {
    Point(a.x - b.x, a.y - b.y, a.z - b.z)
  }

  function Cross(a: Point, b: Point): Point {
    Point(a.y * b.z - a.z * b.y, a.z * b.x - a.x * b.z, a.x * b.y - a.y * b.x)
  }

  function Dot(a: Point, b: Point): real {
    a.x * b.x + a.y * b.y + a.z * b.z
  }

  /** The right-hand-rule normal of a face, from its first two edges. */
  function Normal(face: seq<Point>): Point
    requires |face| >= 3
  {
    Cross(Sub(face[1], face[0]), Sub(face[2], face[1]))
  }

  /** How far the normal points away from the box's centre (positive: outward). */
  function Outwardness(face: seq<Point>, L: real, W: real, H: real): real
    requires |face| >= 3
  {
    Dot(Normal(face), Sub(face[0], Point(L / 2.0, W / 2.0, H / 2.0)))
  }

  lemma VolumePositive(L: real, W: real, H: real)
    requires L > 0.0 && W > 0.0 && H > 0.0
    ensures L * W * H > 0.0
  {
    assert L * W > 0.0;
  }

  /** As written, the top face points into the box: it repeats the floor's winding. */
  lemma AsWrittenTopFacesInward(L: real, W: real, H: real)
    requires L > 0.0 && W > 0.0 && H > 0.0
    ensures Normal(FacesAsWritten(L, W, H)[1]) == Point(0.0, 0.0, -(W * L))
    ensures Outwardness(FacesAsWritten(L, W, H)[1], L, W, H) < 0.0
    ensures Normal(FacesAsWritten(L, W, H)[0]) == Normal(FacesAsWritten(L, W, H)[1])
  {
    var top := FacesAsWritten(L, W, H)[1];
    assert Outwardness(top, L, W, H) == -(W * L) * (H / 2.0);
    VolumePositive(L, W, H);
  }

  /** With the corrected top face, every face points out of the box. */
  lemma FacesOutward(L: real, W: real, H: real)
    requires L > 0.0 && W > 0.0 && H > 0.0
    ensures forall i :: 0 <= i < 6 ==> Outwardness(Faces(L, W, H)[i], L, W, H) > 0.0
  {
    var f := Faces(L, W, H);
    VolumePositive(L, W, H);
    assert Outwardness(f[0], L, W, H) == (W * L) * (H / 2.0);
    assert Outwardness(f[1], L, W, H) == (L * W) * (H / 2.0);
    assert Outwardness(f[2], L, W, H) == (H * W) * (L / 2.0);
    assert Outwardness(f[3], L, W, H) == (W * H) * (L / 2.0);
    assert Outwardness(f[4], L, W, H) == (L * H) * (W / 2.0);
    assert Outwardness(f[5], L, W, H) == (H * L) * (W / 2.0);
  }

  // ---------------------------------------------------------------------------------------
  // The model.

  datatype Material = Material(name: string, thickness: real, conductivity: real, density: real,
                               specificHeat: real)

  datatype Surface = Surface(vertices: seq<Point>, space: string, boundary: string, layers: seq<Material>)

  datatype OutputVariable = OutputVariable(name: string, frequency: string, key: string)

  datatype Model = Model(space: string, zone: string, surfaces: seq<Surface>,
                         output: OutputVariable, weather: Option<string>)

  datatype Build = Built(model: Model) | BuildFailed(message: string)

  const SpaceName := "Space 1"
  const ZoneName := "Thermal Zone 1"
  const Layer := Material("SingleLayerMaterial", 0.1, 0.5, 800.0, 1000.0)
  const LoadFailed := "Failed to load EPW file"
  const BindFailed := "Failed to set weather file in OpenStudio model"

  function MakeSurfaces(faces: seq<seq<Point>>): (r: seq<Surface>)
    ensures |r| == |faces|
    ensures forall i :: 0 <= i < |faces| ==> r[i] == Surface(faces[i], SpaceName, "Outdoors", [Layer])
  {
    seq(|faces|, i requires 0 <= i < |faces| => Surface(faces[i], SpaceName, "Outdoors", [Layer]))
  }

  /** The model around a given face table: one outdoor surface per face, then the weather
      binding. A non-empty weather path is loaded first and bound second. */
  function BuildWith(faces: seq<seq<Point>>, weatherPath: Option<string>, loads: bool, binds: bool)
    : (r: Build)
    ensures r.BuildFailed? <==> weatherPath.Some? && weatherPath.value != "" && !(loads && binds)
    ensures r.BuildFailed? ==> r.message == (if loads then BindFailed else LoadFailed)
    ensures r.Built? ==> (|r.model.surfaces| == |faces|
      && (forall i :: 0 <= i < |faces| ==> r.model.surfaces[i].vertices == faces[i])
      && (forall i :: 0 <= i < |faces| ==> r.model.surfaces[i].layers == [Layer])
      && (forall i :: 0 <= i < |faces| ==> r.model.surfaces[i].space == r.model.space)
      && r.model.output.key == r.model.zone)
    ensures r.Built? ==> (r.model.weather.Some? <==> weatherPath.Some? && weatherPath.value != "")
    ensures r.Built? && r.model.weather.Some? ==> r.model.weather == weatherPath
  {
    var model := Model(SpaceName, ZoneName, MakeSurfaces(faces),
                       OutputVariable("Zone Air Temperature", "Hourly", ZoneName), None);
    if weatherPath.Some? && weatherPath.value != "" then
      if !loads then BuildFailed(LoadFailed)
      else if !binds then BuildFailed(BindFailed)
      else Built(model.(weather := weatherPath))
    else Built(model)
  }

  /** `build_model({"dimensions": (L, W, H), "weather_path": weatherPath})`, with the face table
      as the program lists it; `loads` says whether the weather file could be read, `binds`
      whether attaching it to the model succeeded. */
  function BuildModel(L: real, W: real, H: real, weatherPath: Option<string>, loads: bool, binds: bool)
    : (r: Build)
    ensures r.BuildFailed? <==> weatherPath.Some? && weatherPath.value != "" && !(loads && binds)
    ensures r.BuildFailed? && !loads ==> r.message == LoadFailed
    ensures r.BuildFailed? && loads ==> r.message == BindFailed
    ensures r.Built? ==> (|r.model.surfaces| == 6
      && (forall i :: 0 <= i < 6 ==> r.model.surfaces[i].vertices == FacesAsWritten(L, W, H)[i])
      && (forall i :: 0 <= i < 6 ==> r.model.surfaces[i].layers == [Layer])
      && (forall i :: 0 <= i < 6 ==> r.model.surfaces[i].space == r.model.space)
      && r.model.output.key == r.model.zone)
    ensures r.Built? ==> (r.model.weather.Some? <==> weatherPath.Some? && weatherPath.value != "")
    ensures r.Built? && r.model.weather.Some? ==> r.model.weather == weatherPath
  {
    BuildWith(FacesAsWritten(L, W, H), weatherPath, loads, binds)
  }

  /** As built, five surfaces point out of the box and the top one points into it. */
  lemma BuiltSurfaceOrientation(L: real, W: real, H: real, weatherPath: Option<string>, loads: bool,
                                binds: bool)
    requires L > 0.0 && W > 0.0 && H > 0.0
    requires BuildModel(L, W, H, weatherPath, loads, binds).Built?
    ensures forall i :: 0 <= i < 6 && i != 1 ==>
      Outwardness(BuildModel(L, W, H, weatherPath, loads, binds).model.surfaces[i].vertices, L, W, H) > 0.0
    ensures Outwardness(BuildModel(L, W, H, weatherPath, loads, binds).model.surfaces[1].vertices, L, W, H) < 0.0
  {
    FacesOutward(L, W, H);
    AsWrittenTopFacesInward(L, W, H);
    assert forall i :: 0 <= i < 6 && i != 1 ==> Faces(L, W, H)[i] == FacesAsWritten(L, W, H)[i];
  }

  /** The builder with the corrected top face: it fails exactly as `BuildModel` does and builds
      the same model except for the top surface's vertex order. */
  function BuildCorrectedModel(L: real, W: real, H: real, weatherPath: Option<string>, loads: bool,
                               binds: bool): (r: Build)
    ensures r.BuildFailed? <==> BuildModel(L, W, H, weatherPath, loads, binds).BuildFailed?
    ensures r.BuildFailed? ==> r == BuildModel(L, W, H, weatherPath, loads, binds)
    ensures r.Built? ==> (|r.model.surfaces| == 6 && r.model.surfaces[1].vertices == Roof(L, W, H)
      && r.model == BuildModel(L, W, H, weatherPath, loads, binds).model.(surfaces := r.model.surfaces))
    ensures r.Built? ==> forall i :: 0 <= i < 6 && i != 1 ==>
      r.model.surfaces[i] == BuildModel(L, W, H, weatherPath, loads, binds).model.surfaces[i]
  {
    BuildWith(Faces(L, W, H), weatherPath, loads, binds)
  }

  /** With the corrected top face, every built surface points out of the box. */
  lemma CorrectedSurfacesOutward(L: real, W: real, H: real, weatherPath: Option<string>, loads: bool,
                                 binds: bool)
    requires L > 0.0 && W > 0.0 && H > 0.0
    requires BuildCorrectedModel(L, W, H, weatherPath, loads, binds).Built?
    ensures forall i :: 0 <= i < 6 ==>
      Outwardness(BuildCorrectedModel(L, W, H, weatherPath, loads, binds).model.surfaces[i].vertices, L, W, H) > 0.0
  {
    FacesOutward(L, W, H);
  }
}

=== FILE: csv.dfy ===
/**
 * The record reader of Python's `csv` module in its default ("excel") dialect, as used by
 * `csv.DictReader` on a file opened with `newline=""`: delimiter `,`, quote character `"`,
 * a doubled quote inside a quoted field stands for one quote, no escape character, not strict.
 *
 * The reader is a character-by-character state machine. Outside a quoted field each of
 * "\r\n", "\r" and "\n" ends a record (the `AfterCr` mode swallows the "\n" of a "\r\n"); inside
 * a quoted field every character, delimiters and line breaks included, belongs to the field
 * (section 2, rules 5 to 7, of RFC 4180).
 */
module Csv {
  import Text

  datatype Mode = StartRecord | AfterCr | StartField | InField | InQuoted | QuoteInQuoted

  /** The reader's state: its mode, the field being read, the fields of the record being
      read, and the records finished so far. */
  datatype Reader = Reader(mode: Mode, field: string, fields: seq<string>, records: seq<seq<string>>)

  const Init := Reader(StartRecord, "", [], [])

  predicate IsNewline(c: char) {
    c == '\n' || c == '\r'
  }

  function AfterNewline(c: char): Mode {
    if c == '\r' then AfterCr else StartRecord
  }

  function AddChar(r: Reader, c: char, m: Mode): Reader {
    r.(mode := m, field := r.field + [c])
  }

  function SaveField(r: Reader): Reader {
    r.(mode := StartField, field := "", fields := r.fields + [r.field])
  }

  function EndRecord(r: Reader, c: char): Reader {
    r.(mode := AfterNewline(c), field := "", fields := [], records := r.records + [r.fields + [r.field]])
  }

  function StartOfField(r: Reader, c: char): Reader {
    if IsNewline(c) then EndRecord(r, c)
    else if c == '"' then r.(mode := InQuoted)
    else if c == ',' then SaveField(r)
    else AddChar(r, c, InField)
  }

  /** A line break at the start of a record is a blank line: it yields an empty record. */
  function StartOfRecord(r: Reader, c: char): Reader {
    if IsNewline(c) then r.(mode := AfterNewline(c), records := r.records + [[]])
    else StartOfField(r, c)
  }

  function Step(r: Reader, c: char): Reader {
    match r.mode
    case StartRecord => StartOfRecord(r, c)
    case AfterCr => if c == '\n' then r.(mode := StartRecord) else StartOfRecord(r, c)
    case StartField => StartOfField(r, c)
    case InField =>
      if IsNewline(c) then EndRecord(r, c)
      else if c == ',' then SaveField(r)
      else AddChar(r, c, InField)
    case InQuoted =>
      if c == '"' then r.(mode := QuoteInQuoted) else AddChar(r, c, InQuoted)
    case QuoteInQuoted =>
      if c == '"' then AddChar(r, c, InQuoted)
      else if c == ',' then SaveField(r)
      else if IsNewline(c) then EndRecord(r, c)
      else AddChar(r, c, InField)
  }

  function Run(r: Reader, s: string): Reader
    decreases |s|
  {
    if |s| == 0 then r else Run(Step(r, s[0]), s[1..])
  }

  /** End of input: a record still open is finished, even inside an unterminated quoted field. */
  function Finish(r: Reader): seq<seq<string>> {
    match r.mode
    case StartRecord => r.records
    case AfterCr => r.records
    case _ => r.records + [r.fields + [r.field]]
  }

  /** Some record has been begun: one is finished, or one is open. */
  predicate Begun(r: Reader) {
    |r.records| > 0 || (r.mode != StartRecord && r.mode != AfterCr)
  }

  /** The first character begins a record, and nothing un-begins one: records are never dropped,
      and only a line break (which finishes a record) leads back to the start-of-record modes. */
  lemma StepBegins(r: Reader, c: char)
    requires Begun(r) || r.mode == StartRecord
    ensures Begun(Step(r, c))
  {
  }

  lemma {:induction false} RunBegins(r: Reader, s: string)
    requires Begun(r) || r.mode == StartRecord
    ensures Begun(r) || |s| > 0 ==> Begun(Run(r, s))
    decreases |s|
  {
    if |s| > 0 {
      StepBegins(r, s[0]);
      RunBegins(Step(r, s[0]), s[1..]);
    }
  }

  /** All records of a text, blank lines included as empty records: none exactly for an empty
      file (any character at all begins a record). */
  function Parse(text: string): (r: seq<seq<string>>)
    ensures |r| == 0 <==> text == ""
  {
    RunBegins(Init, text);
    Finish(Run(Init, text))
  }

  // ---------------------------------------------------------------------------------------
  // A writer (minimal quoting, "\n" line terminator) as the reader's independent partner.

  predicate NeedsQuotes(f: string) {
    ',' in f || '"' in f || '\n' in f || '\r' in f
  }

  /** Doubles every quote character. */
  function Escape(f: string): string {
    if |f| == 0 then "" else (if f[0] == '"' then "\"\"" else [f[0]]) + Escape(f[1..])
  }

  /** A field is quoted when it holds a special character, or when it must not read as a blank line. */
  function EncodeField(f: string, forceQuotes: bool): string {
    if NeedsQuotes(f) || (forceQuotes && f == "") then "\"" + Escape(f) + "\"" else f
  }

  function EncodeFields(row: seq<string>, alone: bool): string
    requires |row| >= 1
  {
    if |row| == 1 then EncodeField(row[0], alone)
    else EncodeField(row[0], false) + "," + EncodeFields(row[1..], false)
  }

  function EncodeRecord(row: seq<string>): string {
    if |row| == 0 then "" else EncodeFields(row, |row| == 1)
  }

  function Encode(rows: seq<seq<string>>): string {
    if |rows| == 0 then "" else EncodeRecord(rows[0]) + "\n" + Encode(rows[1..])
  }

  lemma Run1(r: Reader, c: char)
    ensures Run(r, [c]) == Step(r, c)
  {
    assert [c][1..] == [];
  }

  lemma Run2(r: Reader, c: char, d: char)
    ensures Run(r, [c, d]) == Step(Step(r, c), d)
  {
    assert [c, d][1..] == [d];
    Run1(Step(r, c), d);
  }

  lemma {:induction false} RunAppend(r: Reader, a: string, b: string)
    ensures Run(r, a + b) == Run(Run(r, a), b)
    decreases |a|
  {
    if |a| > 0 {
      assert (a + b)[1..] == a[1..] + b;
      RunAppend(Step(r, a[0]), a[1..], b);
    } else {
      assert a + b == b;
    }
  }

  lemma {:induction false} RunEscaped(r: Reader, f: string)
    requires r.mode == InQuoted
    ensures Run(r, Escape(f)) == r.(field := r.field + f)
    decreases |f|
  {
    if |f| > 0 {
      var head := if f[0] == '"' then "\"\"" else [f[0]];
      var r' := r.(field := r.field + [f[0]]);
      RunAppend(r, head, Escape(f[1..]));
      if f[0] == '"' {
        Run2(r, '"', '"');
      } else {
        Run1(r, f[0]);
      }
      RunEscaped(r', f[1..]);
      assert r.field + [f[0]] + f[1..] == r.field + f;
    } else {
      assert r.field + f == r.field;
    }
  }

  lemma {:induction false} RunUnquoted(r: Reader, f: string)
    requires r.mode == InField
    requires !NeedsQuotes(f)
    ensures Run(r, f) == r.(field := r.field + f)
    decreases |f|
  {
    if |f| > 0 {
      assert !NeedsQuotes(f[1..]) by {
        assert forall c :: c in f[1..] ==> c in f;
      }
      RunUnquoted(AddChar(r, f[0], InField), f[1..]);
      assert r.field + [f[0]] + f[1..] == r.field + f;
    } else {
      assert r.field + f == r.field;
    }
  }

  /** A field has been read and awaits its delimiter or line break. */
  predicate Pending(r: Reader, f: string) {
    r.field == f && (r.mode == InField || r.mode == QuoteInQuoted || (f == "" && r.mode == StartField))
  }

  lemma FieldRun(r: Reader, f: string, forceQuotes: bool)
    requires r.field == ""
    requires r.mode == StartField || r.mode == StartRecord
    ensures var q := Run(r, EncodeField(f, forceQuotes));
      && q.fields == r.fields && q.records == r.records && q.field == f
      && (q.mode == InField || q.mode == QuoteInQuoted || (f == "" && q.mode == r.mode && !forceQuotes))
  {
    if NeedsQuotes(f) || (forceQuotes && f == "") {
      var open := r.(mode := InQuoted);
      assert Run(r, "\"") == open;
      RunAppend(r, "\"", Escape(f));
      RunEscaped(open, f);
      RunAppend(r, "\"" + Escape(f), "\"");
    } else if |f| > 0 {
      var first := AddChar(r, f[0], InField);
      assert Run(r, [f[0]]) == first;
      assert !NeedsQuotes(f[1..]) by {
        assert forall c :: c in f[1..] ==> c in f;
      }
      RunUnquoted(first, f[1..]);
      RunAppend(r, [f[0]], f[1..]);
      assert [f[0]] + f[1..] == f;
    }
  }

  /** The delimiter after a field saves it. */
  lemma CommaAfter(r: Reader, head: string)
    requires Run(r, head).mode in {StartRecord, StartField, InField, QuoteInQuoted}
    ensures Run(r, head + ",") == SaveField(Run(r, head))
  {
    var p := Run(r, head);
    RunAppend(r, head, ",");
    Run1(p, ',');
    assert Step(p, ',') == SaveField(p);
  }

  /** Reading several fields: the first field, its delimiter, then the rest. */
  lemma FieldsStep(r: Reader, row: seq<string>)
    requires |row| >= 2
    requires r.field == "" && (r.mode == StartField || r.mode == StartRecord)
    ensures var s := SaveField(Run(r, EncodeField(row[0], false)));
            && s == r.(mode := StartField, field := "", fields := r.fields + [row[0]])
            && Run(r, EncodeFields(row, false)) == Run(s, EncodeFields(row[1..], false))
  {
    var head := EncodeField(row[0], false);
    var tail := EncodeFields(row[1..], false);
    assert EncodeFields(row, false) == head + "," + tail;
    FieldRun(r, row[0], false);
    CommaAfter(r, head);
    RunAppend(r, head + ",", tail);
  }

  /** Reading a single field. */
  lemma FieldsOne(r: Reader, row: seq<string>, alone: bool)
    requires |row| == 1
    requires r.field == ""
    requires r.mode == StartField || (r.mode == StartRecord && r.fields == [])
    requires r.mode == StartRecord ==> alone
    ensures var q := Run(r, EncodeFields(row, alone));
      && q.fields == r.fields + row[..|row| - 1] && q.records == r.records
      && Pending(q, row[|row| - 1])
  {
    assert EncodeFields(row, alone) == EncodeField(row[0], alone);
    FieldRun(r, row[0], alone);
    assert r.fields + row[..0] == r.fields;
  }

  lemma {:induction false} FieldsRun(r: Reader, row: seq<string>, alone: bool)
    requires |row| >= 1
    requires r.field == ""
    requires r.mode == StartField || (r.mode == StartRecord && r.fields == [])
    requires alone ==> |row| == 1
    requires r.mode == StartRecord && |row| == 1 ==> alone
    ensures var q := Run(r, EncodeFields(row, alone));
      && q.fields == r.fields + row[..|row| - 1] && q.records == r.records
      && Pending(q, row[|row| - 1])
    decreases |row|
  {
    if |row| == 1 {
      FieldsOne(r, row, alone);
    } else {
      assert !alone;
      FieldsStep(r, row);
      var s := r.(mode := StartField, field := "", fields := r.fields + [row[0]]);
      var rest := row[1..];
      FieldsRun(s, rest, false);
      var q := Run(s, EncodeFields(rest, false));
      assert q == Run(r, EncodeFields(row, alone));
      assert rest[|rest| - 1] == row[|row| - 1];
      assert rest[..|rest| - 1] == row[1..|row| - 1];
      assert r.fields + [row[0]] + row[1..|row| - 1] == r.fields + row[..|row| - 1];
    }
  }

  /** A line break after a read field finishes the record. */
  lemma NewlineEnds(q: Reader, f: string)
    requires Pending(q, f)
    ensures Run(q, "\n") == Reader(StartRecord, "", [], q.records + [q.fields + [f]])
  {
    Run1(q, '\n');
    assert Step(q, '\n') == EndRecord(q, '\n');
  }

  lemma RecordRun(r: Reader, row: seq<string>)
    requires r.mode == StartRecord && r.field == "" && r.fields == []
    ensures Run(r, EncodeRecord(row) + "\n") == Reader(StartRecord, "", [], r.records + [row])
  {
    if |row| > 0 {
      var enc := EncodeFields(row, |row| == 1);
      assert EncodeRecord(row) == enc;
      FieldsRun(r, row, |row| == 1);
      var q := Run(r, enc);
      RunAppend(r, enc, "\n");
      NewlineEnds(q, row[|row| - 1]);
      assert q.fields + [row[|row| - 1]] == row;
    } else {
      assert EncodeRecord(row) + "\n" == "\n";
      Run1(r, '\n');
    }
  }

  lemma AppendFirst<T>(a: seq<T>, b: seq<T>)
    requires |b| > 0
    ensures a + [b[0]] + b[1..] == a + b
  {
    assert [b[0]] + b[1..] == b;
  }

  /** Reading several records: the first record with its line break, then the rest. */
  lemma RecordsStep(r: Reader, rows: seq<seq<string>>)
    requires |rows| > 0
    ensures Run(r, Encode(rows)) == Run(Run(r, EncodeRecord(rows[0]) + "\n"), Encode(rows[1..]))
  {
    assert Encode(rows) == EncodeRecord(rows[0]) + "\n" + Encode(rows[1..]);
    RunAppend(r, EncodeRecord(rows[0]) + "\n", Encode(rows[1..]));
  }

  lemma {:induction false} RecordsRun(recs: seq<seq<string>>, rows: seq<seq<string>>)
    ensures Run(Reader(StartRecord, "", [], recs), Encode(rows)) == Reader(StartRecord, "", [], recs + rows)
    decreases |rows|
  {
    var r := Reader(StartRecord, "", [], recs);
    if |rows| == 0 {
      assert Encode(rows) == "";
      assert recs + rows == recs;
    } else {
      var more := recs + [rows[0]];
      RecordsStep(r, rows);
      RecordRun(r, rows[0]);
      assert Run(r, EncodeRecord(rows[0]) + "\n") == Reader(StartRecord, "", [], more);
      RecordsRun(more, rows[1..]);
      AppendFirst(recs, rows);
    }
  }

  /** Reading what the writer wrote gives back every record, field for field: quoted fields with
      embedded delimiters, quotes or line breaks stay one field, and empty records stay empty. */
  lemma RoundTrip(rows: seq<seq<string>>)
    ensures Parse(Encode(rows)) == rows
  {
    RecordsRun([], rows);
  }

  lemma {:induction false} EscapeWithoutQuotes(f: string)
    requires '"' !in f
    ensures Escape(f) == f
    decreases |f|
  {
    if |f| > 0 {
      assert '"' !in f[1..] by {
        assert forall c :: c in f[1..] ==> c in f;
      }
      EscapeWithoutQuotes(f[1..]);
      assert [f[0]] + f[1..] == f;
    }
  }

  lemma PairRecord(a: string, b: string)
    ensures EncodeRecord([a, b]) == EncodeField(a, false) + "," + EncodeField(b, false)
  {
    var row := [a, b];
    assert row[1..] == [b];
    assert EncodeFields(row[1..], false) == EncodeField(b, false);
    assert EncodeFields(row, false) == EncodeField(a, false) + "," + EncodeFields(row[1..], false);
    assert EncodeRecord(row) == EncodeFields(row, false);
  }

  /** A quoted value holding a comma, after a plain time cell, is read as one field: a
      temperature written with a decimal comma stays a single cell. */
  lemma QuotedCommaIsOneField(time: string, value: string)
    requires !NeedsQuotes(time)
    requires ',' in value && '"' !in value
    ensures Parse(time + "," + "\"" + value + "\"" + "\n") == [[time, value]]
  {
    var rows := [[time, value]];
    var quoted := "\"" + value + "\"";
    EscapeWithoutQuotes(value);
    assert EncodeField(value, false) == quoted;
    PairRecord(time, value);
    assert rows[1..] == [];
    assert Encode(rows) == EncodeRecord([time, value]) + "\n" + "";
    assert Encode(rows) == time + "," + quoted + "\n";
    assert time + "," + quoted == time + "," + "\"" + value + "\"";
    RoundTrip(rows);
  }

  // ---------------------------------------------------------------------------------------
  // On text without quotes the reader splits each line at every delimiter.

  /** A non-blank line of text with no quote and no line break. */
  predicate PlainLine(line: string) {
    |line| > 0 && '"' !in line && '\n' !in line && '\r' !in line
  }

  /** The state after reading plain text: every piece of the split but the last is a saved field. */
  function PlainState(r: Reader, s: string): Reader {
    var parts := Text.SplitOn(r.field + s, ',');
    var last := parts[|parts| - 1];
    r.(fields := r.fields + parts[..|parts| - 1], field := last,
       mode := if last == "" then StartField else InField)
  }

  predicate PlainText(s: string) {
    '"' !in s && '\n' !in s && '\r' !in s
  }

  predicate InPlainField(r: Reader) {
    && (r.mode == StartField || r.mode == InField)
    && (r.mode == StartField <==> r.field == "")
    && ',' !in r.field
  }

  lemma PlainTail(s: string)
    requires |s| > 0 && PlainText(s)
    ensures PlainText(s[1..])
  {
    assert forall c :: c in s[1..] ==> c in s;
  }

  /** Splitting after a leading comma-free piece adds that piece in front. */
  lemma PlainCommaParts(field: string, rest: string)
    requires ',' !in field
    ensures var parts := Text.SplitOn(field + [','] + rest, ',');
            var parts' := Text.SplitOn(rest, ',');
            && parts[..|parts| - 1] == [field] + parts'[..|parts'| - 1]
            && parts[|parts| - 1] == parts'[|parts'| - 1]
  {
    Text.SplitPiece(field, ',', rest);
    var parts' := Text.SplitOn(rest, ',');
    var parts := [field] + parts';
    assert parts[..|parts| - 1] == [field] + parts'[..|parts'| - 1];
  }

  lemma PlainComma(r: Reader, s: string)
    requires InPlainField(r) && PlainText(s) && |s| > 0 && s[0] == ','
    ensures PlainState(r, s) == PlainState(SaveField(r), s[1..])
  {
    var rest := s[1..];
    assert r.field + s == r.field + [','] + rest;
    PlainCommaParts(r.field, rest);
    var parts := Text.SplitOn(r.field + s, ',');
    var parts' := Text.SplitOn(rest, ',');
    var saved := SaveField(r);
    assert saved.field + rest == rest;
    assert (r.fields + [r.field]) + parts'[..|parts'| - 1] == r.fields + ([r.field] + parts'[..|parts'| - 1]);
  }

  lemma PlainOther(r: Reader, s: string)
    requires InPlainField(r) && PlainText(s) && |s| > 0 && s[0] != ','
    ensures PlainState(r, s) == PlainState(AddChar(r, s[0], InField), s[1..])
  {
    assert r.field + [s[0]] + s[1..] == r.field + s;
  }

  lemma {:induction false} PlainRun(r: Reader, s: string)
    requires InPlainField(r) && PlainText(s)
    ensures Run(r, s) == PlainState(r, s)
    decreases |s|
  {
    if |s| == 0 {
      Text.SplitPiece(r.field, ',', "");
      assert r.field + s == r.field;
    } else {
      PlainTail(s);
      if s[0] == ',' {
        assert Step(r, s[0]) == SaveField(r);
        PlainRun(SaveField(r), s[1..]);
        PlainComma(r, s);
      } else {
        assert Step(r, s[0]) == AddChar(r, s[0], InField);
        PlainRun(AddChar(r, s[0], InField), s[1..]);
        PlainOther(r, s);
      }
    }
  }

  lemma PlainLineRun(recs: seq<seq<string>>, line: string)
    requires PlainLine(line)
    ensures Run(Reader(StartRecord, "", [], recs), line + "\n")
         == Reader(StartRecord, "", [], recs + [Text.SplitOn(line, ',')])
  {
    var r := Reader(StartRecord, "", [], recs);
    var f := r.(mode := StartField);
    assert Step(r, line[0]) == Step(f, line[0]);
    assert Run(r, line) == Run(f, line);
    assert PlainText(line);
    PlainRun(f, line);
    var q := Run(r, line);
    RunAppend(r, line, "\n");
    Run1(q, '\n');
    var parts := Text.SplitOn(line, ',');
    assert "" + line == line;
    assert q.fields == parts[..|parts| - 1];
    assert q.field == parts[|parts| - 1];
    assert q.mode == StartField || q.mode == InField;
    assert parts[..|parts| - 1] + [parts[|parts| - 1]] == parts;
    assert Step(q, '\n') == EndRecord(q, '\n');
  }

  /** The text made of the given lines, each ended by "\n". */
  function Lines(lines: seq<string>): string {
    if |lines| == 0 then "" else lines[0] + "\n" + Lines(lines[1..])
  }

  lemma {:induction false} PlainLinesRun(recs: seq<seq<string>>, lines: seq<string>)
    requires forall k :: 0 <= k < |lines| ==> PlainLine(lines[k])
    ensures var rows := seq(|lines|, k requires 0 <= k < |lines| => Text.SplitOn(lines[k], ','));
      Run(Reader(StartRecord, "", [], recs), Lines(lines)) == Reader(StartRecord, "", [], recs + rows)
    decreases |lines|
  {
    if |lines| > 0 {
      var r := Reader(StartRecord, "", [], recs);
      RunAppend(r, lines[0] + "\n", Lines(lines[1..]));
      PlainLineRun(recs, lines[0]);
      PlainLinesRun(recs + [Text.SplitOn(lines[0], ',')], lines[1..]);
    }
  }

  /** When no line holds a quote, the quote-aware reader yields exactly the pieces of a naive
      split of each line at every comma. */
  lemma PlainLinesParse(lines: seq<string>)
    requires forall k :: 0 <= k < |lines| ==> PlainLine(lines[k])
    ensures |Parse(Lines(lines))| == |lines|
    ensures forall k :: 0 <= k < |lines| ==> Parse(Lines(lines))[k] == Text.SplitOn(lines[k], ',')
  {
    PlainLinesRun([], lines);
  }
}

=== FILE: frontend.dfy ===
/**
 * The dashboard page (src/App.js) as a state machine: the form fields, the run status
 * (idle, uploading, running, completed, error), the run id, the plotted series and the error
 * banner, changed by the user's events, the answer to the submission, and the answers to the
 * five-second result polls. Also the page's own CSV reader `parseEnergyPlusCSV`.
 *
 * Files are represented by their names; the server's answers are event parameters.
 */
module Frontend {
  import opened Wrappers
  import Text
  import Results

  datatype Status = Idle | Uploading | Running | Completed | Error

  /** Every piece of the page's state. */
  datatype Ui = Ui(idf: Option<string>, weather: Option<string>,
                   length: string, width: string, height: string,
                   runId: string, plot: seq<Results.Sample>, status: Status,
                   error: Option<string>, progress: int)

  /** The page as first rendered: the `useState` initial values, field by field. */
  const Initial := Ui(None, None, "", "", "", "", [], Idle, None, 0)

  const NoWeather := "Please select a weather (.epw) file"
  const NoModel := "Please upload an IDF or enter building dimensions"
  const StartFailed := "Failed to start simulation"
  const FetchFailed := "Error fetching results"

  /** The three size fields are all filled in (JavaScript treats an empty string as false). */
  predicate HasDimensions(ui: Ui) {
    ui.length != "" && ui.width != "" && ui.height != ""
  }

  /** The run button is enabled: exactly on an idle page whose click passes the handler's
      validation. */
  predicate CanRun(ui: Ui)
    ensures CanRun(ui) <==> ui.status == Idle && StartRun(ui).1.Some?
  {
    ui.weather.Some? && (ui.idf.Some? || HasDimensions(ui)) && ui.status == Idle
  }

  /** What the page posts: the model file only when one is chosen, the size fields always. */
  datatype Submission = Submission(idf: Option<string>, weather: string,
                                   length: string, width: string, height: string)

  /** `detail || fallback`: a missing or empty detail gives the fallback. */
  function DetailOr(detail: Option<string>, fallback: string): (r: string)
    ensures r != "" || fallback == ""
    ensures detail.Some? && detail.value != "" ==> r == detail.value
    ensures detail.None? || detail.value == "" ==> r == fallback
  {
    if detail.Some? && detail.value != "" then detail.value else fallback
  }

  /** The synchronous half of `handleRunSimulation`: clear the banner, validate, then start the
      upload and name what is posted. */
  function StartRun(ui: Ui): (r: (Ui, Option<Submission>))
    ensures r.1.None? <==> ui.weather.None? || (ui.idf.None? && !HasDimensions(ui))
    ensures r.1.None? ==> r.0 == ui.(error := Some(if ui.weather.None? then NoWeather else NoModel))
    ensures r.1.Some? ==> r.0 == ui.(error := None, status := Uploading, progress := 0)
    ensures r.1.Some? ==> r.1.value == Submission(ui.idf, ui.weather.value, ui.length, ui.width, ui.height)
  {
    var cleared := ui.(error := None);
    if ui.weather.None? then (cleared.(error := Some(NoWeather)), None)
    else if ui.idf.None? && !HasDimensions(ui) then (cleared.(error := Some(NoModel)), None)
    else (cleared.(status := Uploading, progress := 0),
          Some(Submission(ui.idf, ui.weather.value, ui.length, ui.width, ui.height)))
  }

  /** When the button is enabled the validation never fires: the click always posts. */
  lemma EnabledClickPosts(ui: Ui)
    requires CanRun(ui)
    ensures StartRun(ui).1.Some? && StartRun(ui).0.status == Uploading
  {
  }

  /** The answer to the submission. */
  datatype PostResult = PostOk(runId: string) | PostFailed(detail: Option<string>)

  /** The asynchronous half of `handleRunSimulation`. */
  function Settle(ui: Ui, answer: PostResult): (r: Ui)
    ensures answer.PostOk? ==> r == ui.(runId := answer.runId, status := Running)
    ensures answer.PostFailed? ==> r == ui.(status := Error, error := Some(DetailOr(answer.detail, StartFailed)))
    ensures r.status == Error ==> r.error.Some? && r.error.value != ""
  {
    match answer
    case PostOk(id) => ui.(runId := id, status := Running)
    case PostFailed(detail) => ui.(status := Error, error := Some(DetailOr(detail, StartFailed)))
  }

  /** The answer to one poll: a body carrying `data`, or an error with its status code (none when
      no response came back) and its `detail`. */
  datatype PollResult = PollData(data: seq<Results.Sample>) | PollFailed(code: Option<int>, detail: Option<string>)

  /** One tick of the polling interval; it only runs while a run with an id is in progress. */
  function Poll(ui: Ui, answer: PollResult): (r: Ui)
    ensures !(ui.status == Running && ui.runId != "") ==> r == ui
    ensures r.status == Completed && ui.status != Completed ==> |r.plot| > 0
    ensures ui.status == Running && ui.runId != "" ==>
      (r.status == Completed <==> answer.PollData? && |answer.data| > 0)
    ensures ui.status == Running && ui.runId != "" ==>
      (r.status == Error <==> answer.PollFailed? && answer.code != Some(404))
    ensures r.status == Running ==> r == ui
    ensures r.status == Error && ui.status != Error ==> r.error.Some? && r.error.value != ""
    ensures ui.status == Running && ui.runId != "" && answer.PollData? && |answer.data| > 0 ==>
      r == ui.(plot := answer.data, status := Completed)
    ensures ui.status == Running && ui.runId != "" && answer.PollFailed? && answer.code != Some(404) ==>
      r == ui.(status := Error, error := Some(DetailOr(answer.detail, FetchFailed)))
  {
    if !(ui.status == Running && ui.runId != "") then ui
    else
      match answer
      case PollData(data) => if |data| > 0 then ui.(plot := data, status := Completed) else ui
      case PollFailed(code, detail) =>
        if code == Some(404) then ui
        else ui.(status := Error, error := Some(DetailOr(detail, FetchFailed)))
  }

  /** `resetSimulation`: one setter per field, each putting it back to its first value. */
  function Reset(ui: Ui): (r: Ui)
    ensures r == Initial
  {
    ui.(idf := None, weather := None, length := "", width := "", height := "", runId := "",
        plot := [], status := Idle, error := None, progress := 0)
  }

  /** What can happen to the page. */
  datatype Event =
    | PickIdf(chosen: Option<string>)      // the file dialog; `None` when nothing was chosen
    | PickWeather(chosen: Option<string>)
    | RemoveIdf
    | RemoveWeather
    | EditLength(text: string)
    | EditWidth(text: string)
    | EditHeight(text: string)
    | Click                                // the run button
    | Answer(post: PostResult)             // the submission's answer arrives
    | Tick(poll: PollResult)               // a poll's answer arrives
    | ResetClicked

  /** One event. Editing the form never touches the run; a disabled button and a late answer to
      the submission do nothing. */
  function Step(ui: Ui, ev: Event): (r: Ui)
    ensures (ev.PickIdf? || ev.PickWeather? || ev.RemoveIdf? || ev.RemoveWeather? || ev.EditLength?
             || ev.EditWidth? || ev.EditHeight?) ==>
      r.status == ui.status && r.runId == ui.runId && r.plot == ui.plot && r.progress == ui.progress
    ensures ev.Click? && !CanRun(ui) ==> r == ui
    ensures ev.Click? && CanRun(ui) ==> r.status == Uploading && r.error.None?
    ensures ev.Answer? && ui.status != Uploading ==> r == ui
  {
    match ev
    case PickIdf(f) => if f.Some? then ui.(idf := f, error := None) else ui
    case PickWeather(f) => if f.Some? then ui.(weather := f, error := None) else ui
    case RemoveIdf => ui.(idf := None)
    case RemoveWeather => ui.(weather := None)
    case EditLength(t) => ui.(length := t)
    case EditWidth(t) => ui.(width := t)
    case EditHeight(t) => ui.(height := t)
    case Click => if CanRun(ui) then StartRun(ui).0 else ui
    case Answer(p) => if ui.status == Uploading then Settle(ui, p) else ui
    case Tick(p) => Poll(ui, p)
    case ResetClicked => if ui.status == Completed || ui.status == Error then Reset(ui) else ui
  }

  /** The status moves only along idle → uploading → running → completed, with error reachable
      from uploading and running, and reset going back to idle from the two end states. */
  predicate Transition(a: Status, b: Status) {
    || a == b
    || (a == Idle && b == Uploading)
    || (a == Uploading && (b == Running || b == Error))
    || (a == Running && (b == Completed || b == Error))
    || ((a == Completed || a == Error) && b == Idle)
  }

  lemma StepTransition(ui: Ui, ev: Event)
    ensures Transition(ui.status, Step(ui, ev).status)
  {
  }

  /** What holds on every page state: nothing is plotted before completion and something is after;
      idle and uploading pages have no run id; the banner is clear while uploading, running or
      completed. (On the error page choosing a file clears the banner, so nothing is promised
      there.) */
  predicate Valid(ui: Ui) {
    && (ui.status == Completed <==> |ui.plot| > 0)
    && (ui.status == Idle || ui.status == Uploading ==> ui.runId == "")
    && (ui.status == Running || ui.status == Uploading || ui.status == Completed ==> ui.error.None?)
  }

  lemma InitialValid()
    ensures Valid(Initial)
  {
  }

  lemma StepValid(ui: Ui, ev: Event)
    requires Valid(ui)
    ensures Valid(Step(ui, ev))
  {
  }

  /** The page after a sequence of events. */
  function Run(ui: Ui, evs: seq<Event>): Ui
    decreases |evs|
  {
    if |evs| == 0 then ui else Run(Step(ui, evs[0]), evs[1..])
  }

  /** Every page state reachable from the initial one is valid. */
  lemma {:induction false} RunValid(ui: Ui, evs: seq<Event>)
    requires Valid(ui)
    ensures Valid(Run(ui, evs))
    decreases |evs|
  {
    if |evs| > 0 {
      StepValid(ui, evs[0]);
      RunValid(Step(ui, evs[0]), evs[1..]);
    }
  }

  /** A completed or failed page ignores further polls and answers: only reset leaves those states. */
  lemma EndStatesStay(ui: Ui, ev: Event)
    requires ui.status == Completed || ui.status == Error
    ensures Step(ui, ev).status == ui.status || (ev.ResetClicked? && Step(ui, ev) == Initial)
    ensures ev.Tick? || ev.Answer? ==> Step(ui, ev) == ui
  {
  }

  // ---------------------------------------------------------------------------------------
  // `parseEnergyPlusCSV`: the page's own naive reader (no caller uses it).

  const ExactTime := "Date/Time"
  const ValueMarker := "Zone Air Temperature"

  /** `headers.indexOf(x)`: the first exact match. */
  function IndexOf(items: seq<string>, x: string): (r: Option<nat>)
    ensures r.Some? ==> r.value < |items| && items[r.value] == x
    ensures r.Some? ==> forall j :: 0 <= j < r.value ==> items[j] != x
    ensures r.None? <==> x !in items
  {
    if |items| == 0 then None
    else if items[0] == x then Some(0)
    else
      var rest := IndexOf(items[1..], x);
      assert items == [items[0]] + items[1..];
      if rest.None? then None else Some(rest.value + 1)
  }

  /** Each line, or `None` where it is blank once trimmed. */
  function MarkNonBlank(lines: seq<string>): (r: seq<Option<string>>)
    ensures |r| == |lines|
    ensures forall k :: 0 <= k < |lines| ==> r[k] == if Text.Trim(lines[k]) != "" then Some(lines[k]) else None
  {
    seq(|lines|, k requires 0 <= k < |lines| => if Text.Trim(lines[k]) != "" then Some(lines[k]) else None)
  }

  /** The lines that are not blank once trimmed, in order. */
  function NonBlankLines(lines: seq<string>): seq<string> {
    Somes(MarkNonBlank(lines))
  }

  /** One data line as a point: the time cell (if the line reaches it) and the value, which
      `parseFloat` turns into NaN — `None` — when absent or not a number. */
  function ReadLine(line: string, timeIdx: nat, valueIdx: nat, parse: string -> Option<real>)
    : Option<Results.Sample>
  {
    var cols := Text.SplitOn(line, ',');
    var value := if valueIdx < |cols| then parse(cols[valueIdx]) else None;
    if value.None? then None
    else Some(Results.Sample(if timeIdx < |cols| then Some(cols[timeIdx]) else None, value.value))
  }

  /** The points of the data lines, in order, with the non-numbers dropped. */
  function ReadLines(rest: seq<string>, timeIdx: nat, valueIdx: nat, parse: string -> Option<real>)
    : (r: seq<Option<Results.Sample>>)
    ensures |r| == |rest|
    ensures forall k :: 0 <= k < |rest| ==> r[k] == ReadLine(rest[k], timeIdx, valueIdx, parse)
  {
    seq(|rest|, k requires 0 <= k < |rest| => ReadLine(rest[k], timeIdx, valueIdx, parse))
  }

  function Headers(line: string): (r: seq<string>)
    ensures |r| == |Text.SplitOn(line, ',')|
    ensures forall k :: 0 <= k < |r| ==> r[k] == Text.Trim(Text.SplitOn(line, ',')[k])
  {
    var cells := Text.SplitOn(line, ',');
    seq(|cells|, k requires 0 <= k < |cells| => Text.Trim(cells[k]))
  }

  /** The reader on the non-blank lines: `None` when there is no header line to split. */
  function ParseLines(lines: seq<string>, parse: string -> Option<real>): (r: Option<seq<Results.Sample>>)
    ensures r.None? <==> |lines| == 0
    ensures r.Some? && |r.value| > 0 ==>
      ExactTime in Headers(lines[0]) && Results.LocateColumn(Headers(lines[0]), ValueMarker).Some?
  {
    if |lines| == 0 then None
    else
      var headers := Headers(lines[0]);
      var timeIdx := IndexOf(headers, ExactTime);
      var valueIdx := Results.LocateColumn(headers, ValueMarker);
      if timeIdx.None? || valueIdx.None? then Some([])
      else Some(Somes(ReadLines(lines[1..], timeIdx.value, valueIdx.value, parse)))
  }

  /** `parseEnergyPlusCSV(csvData)`; `None` stands for the exception thrown when there is no
      non-blank line at all (the header line is then `undefined`). */
  function ParseEnergyPlusCsv(csv: string, parse: string -> Option<real>): (r: Option<seq<Results.Sample>>)
    ensures r.None? <==> |NonBlankLines(Text.SplitOn(csv, '\n'))| == 0
    ensures r.Some? && |r.value| > 0 ==> (ExactTime in Headers(NonBlankLines(Text.SplitOn(csv, '\n'))[0])
      && Results.LocateColumn(Headers(NonBlankLines(Text.SplitOn(csv, '\n'))[0]), ValueMarker).Some?)
  {
    ParseLines(NonBlankLines(Text.SplitOn(csv, '\n')), parse)
  }

  /** Reading lines one by one and dropping the non-numbers keeps file order: the points come from
      increasing lines, each read by `ReadLine`, and every line with a numeric value contributes. */
  lemma PointsInOrder(rest: seq<string>, ti: nat, vi: nat, parse: string -> Option<real>)
    ensures var read := ReadLines(rest, ti, vi, parse);
            var out := Somes(read);
            var idx := SomeIndices(read);
            && |out| <= |rest|
            && |idx| == |out|
            && (forall j :: 0 <= j < |idx| ==> idx[j] < |rest| && ReadLine(rest[idx[j]], ti, vi, parse) == Some(out[j]))
            && (forall i, j :: 0 <= i < j < |idx| ==> idx[i] < idx[j])
            && (forall k :: 0 <= k < |rest| && ReadLine(rest[k], ti, vi, parse).Some? ==> k in idx)
  {
    SomeIndicesSpec(ReadLines(rest, ti, vi, parse));
  }

  /** The page's output keeps file order: its points come from increasing data lines, each read by
      `ReadLine`, every line with a numeric value contributes, and there is at most one point per
      non-blank line after the header. */
  lemma ParsedPointsInOrder(csv: string, parse: string -> Option<real>)
    requires |NonBlankLines(Text.SplitOn(csv, '\n'))| > 0
    requires ExactTime in Headers(NonBlankLines(Text.SplitOn(csv, '\n'))[0])
    requires Results.LocateColumn(Headers(NonBlankLines(Text.SplitOn(csv, '\n'))[0]), ValueMarker).Some?
    ensures var lines := NonBlankLines(Text.SplitOn(csv, '\n'));
            var headers := Headers(lines[0]);
            var ti := IndexOf(headers, ExactTime).value;
            var vi := Results.LocateColumn(headers, ValueMarker).value;
            && ParseEnergyPlusCsv(csv, parse) == Some(Somes(ReadLines(lines[1..], ti, vi, parse)))
            && |ParseEnergyPlusCsv(csv, parse).value| <= |lines| - 1
  {
    var lines := NonBlankLines(Text.SplitOn(csv, '\n'));
    var headers := Headers(lines[0]);
    var ti := IndexOf(headers, ExactTime).value;
    var vi := Results.LocateColumn(headers, ValueMarker).value;
    assert ParseEnergyPlusCsv(csv, parse) == ParseLines(lines, parse);
    PointsInOrder(lines[1..], ti, vi, parse);
  }

  /** The kept lines sit at increasing positions of the input, and every non-blank line is kept. */
  lemma NonBlankPositions(lines: seq<string>)
    ensures var idx := SomeIndices(MarkNonBlank(lines));
            && |idx| == |NonBlankLines(lines)|
            && (forall i, j :: 0 <= i < j < |idx| ==> idx[i] < idx[j])
            && (forall j :: 0 <= j < |idx| ==> idx[j] < |lines| && NonBlankLines(lines)[j] == lines[idx[j]]
                                               && Text.Trim(lines[idx[j]]) != "")
            && (forall k :: 0 <= k < |lines| && Text.Trim(lines[k]) != "" ==> k in idx)
  {
    var xs := MarkNonBlank(lines);
    var out := NonBlankLines(lines);
    SomeIndicesSpec(xs);
    var idx := SomeIndices(xs);
    forall j | 0 <= j < |idx|
      ensures idx[j] < |lines| && out[j] == lines[idx[j]] && Text.Trim(lines[idx[j]]) != ""
    {
      assert xs[idx[j]] == Some(out[j]);
    }
    forall k | 0 <= k < |lines| && Text.Trim(lines[k]) != ""
      ensures k in idx
    {
      assert xs[k].Some?;
    }
  }

  /** A line is kept by the blank-line filter exactly when trimming leaves something, and the kept
      lines keep their order. */
  lemma NonBlankLinesSpec(lines: seq<string>)
    ensures forall x :: x in NonBlankLines(lines) ==> Text.Trim(x) != "" && x in lines
    ensures forall k :: 0 <= k < |lines| && Text.Trim(lines[k]) != "" ==> lines[k] in NonBlankLines(lines)
    ensures var idx := SomeIndices(MarkNonBlank(lines));
            && |idx| == |NonBlankLines(lines)|
            && (forall i, j :: 0 <= i < j < |idx| ==> idx[i] < idx[j])
            && (forall j :: 0 <= j < |idx| ==> idx[j] < |lines| && NonBlankLines(lines)[j] == lines[idx[j]])
  {
    NonBlankPositions(lines);
    var out := NonBlankLines(lines);
    var idx := SomeIndices(MarkNonBlank(lines));
    forall x | x in out
      ensures Text.Trim(x) != "" && x in lines
    {
      var j :| 0 <= j < |out| && out[j] == x;
      assert lines[idx[j]] == x;
    }
    forall k | 0 <= k < |lines| && Text.Trim(lines[k]) != ""
      ensures lines[k] in out
    {
      var j :| 0 <= j < |idx| && idx[j] == k;
      assert out[j] == lines[k];
    }
  }
}

=== FILE: lifecycle.dfy ===
/**
 * How the pieces meet over one job: the submission handler prepares the job directory, the
 * background run fills it and may write the marker, the result query reads it, and the page
 * turns each query answer into a state change.
 */
module Lifecycle {
  import opened Wrappers
  import Text
  import Csv
  import opened Workspace
  import Results
  import Runner
  import Simulate
  import Frontend

  lemma MarkerNameIsNotAnOutput()
    ensures MarkerName != CsvName && MarkerName != ErrName && MarkerName != InputName
  {
    assert |MarkerName| == 8 && |CsvName| == 12 && |ErrName| == 12 && |InputName| == 9;
  }

  /** After a run that wrote the marker, the query on the directory as the run left it gets past
      the error-log and missing-CSV checks and reads the CSV the engine wrote, even though the
      query checks the log first and the run checked the CSV first. */
  lemma CompletedRunIsReadable(idfPath: string, tmpDir: string, weatherPath: string,
                               override: Option<string>, env: Option<string>, probe: Runner.Probe,
                               existing: set<string>, before: seq<File>, engine: Runner.EngineRun,
                               runId: string, parse: string -> Option<real>)
    requires Runner.RunSimulation(idfPath, tmpDir, weatherPath, override, env, probe, existing, before,
                                  engine).outcome.Completed?
    ensures var job := Runner.RunSimulation(idfPath, tmpDir, weatherPath, override, env, probe, existing,
                                            before, engine);
            && Lookup(job.files, MarkerName) == Some(MarkerText)
            && var answer := Results.Query(Present(job.files), runId, parse);
            && !answer.DirNotFound? && !answer.EngineErrors? && !answer.CsvNotFound?
            && answer == Results.Extract(Lookup(engine.after, CsvName).value, parse)
  {
    MarkerNameIsNotAnOutput();
    var marker := File(MarkerName, MarkerText);
    PutLookup(engine.after, marker, MarkerName);
    PutLookup(engine.after, marker, CsvName);
    PutLookup(engine.after, marker, ErrName);
  }

  /** The query never looks at the marker: once it gets as far as the CSV, adding `done.txt` to
      the directory changes nothing. */
  lemma QueryIgnoresMarker(files: seq<File>, runId: string, parse: string -> Option<real>)
    requires !Results.Query(Present(files), runId, parse).CsvNotFound?
    ensures Results.Query(Present(Put(files, File(MarkerName, MarkerText))), runId, parse)
         == Results.Query(Present(files), runId, parse)
  {
    MarkerNameIsNotAnOutput();
    var marker := File(MarkerName, MarkerText);
    var marked := Put(files, marker);
    PutLookup(files, marker, CsvName);
    PutLookup(files, marker, ErrName);
    assert Results.ErrorLog(marked) == Results.ErrorLog(files);
    if !Results.SevereLogged(files) {
      assert Lookup(marked, CsvName) == Lookup(files, CsvName);
      assert Lookup(files, CsvName).Some?;
    }
  }

  /** The two orders disagree when the engine exits cleanly with a severe error logged and no CSV:
      the run fails as a missing CSV, the query reports the engine's errors. */
  lemma OppositeCheckOrder(idfPath: string, tmpDir: string, weatherPath: string,
                           override: Option<string>, env: Option<string>, existing: set<string>,
                           before: seq<File>, after: seq<File>, runId: string, parse: string -> Option<real>)
    requires idfPath in existing && weatherPath in existing
    requires Lookup(after, CsvName).None?
    requires Results.SevereLogged(after)
    ensures Runner.RunSimulation(idfPath, tmpDir, weatherPath, override, env, Runner.ProbeRan, existing,
                                 before, Runner.Exited(0, after)).outcome
         == Runner.Raised(Runner.Message(Runner.MissingCsv(JoinPath(tmpDir, CsvName))))
    ensures Results.Query(Present(after), runId, parse)
         == Results.EngineErrors(Results.Excerpt(Results.ErrorLog(after).value))
  {
  }

  // ---------------------------------------------------------------------------------------
  // Query answers as the page sees them.

  /** The HTTP answer the page receives; `rendered` is the text of the details built with Python's
      `repr` (the header list, the rejected value), and an uncaught exception has no `detail`. */
  function Answer(o: Results.QueryOutcome, rendered: string): (r: Frontend.PollResult)
    ensures r.PollData? <==> o.Series?
    ensures r.PollFailed? ==> r.code == Some(Results.StatusCode(o))
    ensures r.PollFailed? && Results.Detail(o).Some? ==> r.detail == Results.Detail(o)
  {
    match o
    case Series(data) => Frontend.PollData(data)
    case ColumnsNotFound(_) => Frontend.PollFailed(Some(500), Some(rendered))
    case BadValue(_) => Frontend.PollFailed(Some(500), Some(rendered))
    case Unhandled => Frontend.PollFailed(Some(500), None)
    case _ => Frontend.PollFailed(Some(Results.StatusCode(o)), Results.Detail(o))
  }

  /** A run that timed out before writing a CSV or logging a severe error leaves a directory the
      query answers with 404, which the page takes for "still running": it polls forever. */
  lemma TimeoutLooksRunning(files: seq<File>, runId: string, parse: string -> Option<real>,
                            rendered: string, ui: Frontend.Ui)
    requires Lookup(files, CsvName).None?
    requires !Results.SevereLogged(files)
    ensures Results.Query(Present(files), runId, parse).CsvNotFound?
    ensures Results.StatusCode(Results.Query(Present(files), runId, parse)) == 404
    ensures Frontend.Poll(ui, Answer(Results.Query(Present(files), runId, parse), rendered)) == ui
  {
  }

  /** A CSV with a header and no data records is a successful empty series, which the page also
      keeps polling on. */
  lemma EmptySeriesLooksRunning(ui: Frontend.Ui, rendered: string)
    ensures Frontend.Poll(ui, Answer(Results.Series([]), rendered)) == ui
  {
  }

  // ---------------------------------------------------------------------------------------
  // Submission, then the run.

  /** An accepted job whose directory still holds what the handler wrote passes the run's input
      checks, unless the synthesised model was not saved: then the run stops at the missing
      `input.idf` before launching the engine. */
  lemma AcceptedJobInputs(form: Simulate.Form, runId: string, fx: Simulate.Effects,
                          override: Option<string>, env: Option<string>, existing: set<string>,
                          engine: Runner.EngineRun)
    requires Simulate.Submit(form, runId, fx).response.Accepted?
    requires Paths(JobDir(runId), Simulate.Submit(form, runId, fx).files) <= existing
    ensures var reply := Simulate.Submit(form, runId, fx);
            var t := reply.tasks[0];
            var job := Runner.RunSimulation(t.idfPath, t.tmpDir, t.weatherPath, override, env,
                                            Runner.ProbeRan, existing, reply.files, engine);
            (form.idf.Some? || fx.saved ==> job.invoked.Some?)
  {
    var reply := Simulate.Submit(form, runId, fx);
    var t := reply.tasks[0];
    assert Lookup(reply.files, WeatherName).Some?;
    var w :| 0 <= w < |reply.files| && reply.files[w] == File(WeatherName, form.weather);
    assert JoinPath(JobDir(runId), reply.files[w].name) in existing;
    if form.idf.Some? || fx.saved {
      assert Lookup(reply.files, InputName).Some?;
      var i :| 0 <= i < |reply.files| && reply.files[i].name == InputName;
      assert JoinPath(JobDir(runId), reply.files[i].name) in existing;
    }
  }

  /** When the synthesised model was not saved the job fails naming the missing model file, and
      nothing the page can see changes: the directory has no CSV, so the query keeps answering 404. */
  lemma UnsavedModelFailsSilently(form: Simulate.Form, runId: string, fx: Simulate.Effects,
                                  override: Option<string>, env: Option<string>, engine: Runner.EngineRun,
                                  parse: string -> Option<real>)
    requires Simulate.Submit(form, runId, fx).response.Accepted?
    requires form.idf.None? && !fx.saved
    ensures var reply := Simulate.Submit(form, runId, fx);
            var t := reply.tasks[0];
            var existing := Paths(JobDir(runId), reply.files);
            var job := Runner.RunSimulation(t.idfPath, t.tmpDir, t.weatherPath, override, env,
                                            Runner.ProbeRan, existing, reply.files, engine);
            && job.outcome == Runner.Raised(Runner.Message(Runner.InputMissing(t.idfPath)))
            && Results.StatusCode(Results.Query(Present(job.files), runId, parse)) == 404
  {
    var reply := Simulate.Submit(form, runId, fx);
    var t := reply.tasks[0];
    assert reply.files == [File(WeatherName, form.weather)];
    var existing := Paths(JobDir(runId), reply.files);
    assert existing == {JoinPath(JobDir(runId), WeatherName)};
    assert t.idfPath !in existing by {
      assert |WeatherName| == 11 && |InputName| == 9;
    }
  }

  // ---------------------------------------------------------------------------------------
  // The page's naive reader against the server's reader.

  lemma LinesAsJoin(lines: seq<string>)
    ensures Csv.Lines(lines) == Text.JoinWith("\n", lines + [""])
    decreases |lines|
  {
    if |lines| > 0 {
      LinesAsJoin(lines[1..]);
      assert (lines + [""])[1..] == lines[1..] + [""];
    }
  }

  /** Splitting newline-terminated lines at the newlines gives the lines and a trailing empty piece. */
  lemma SplitLines(lines: seq<string>)
    requires forall k :: 0 <= k < |lines| ==> '\n' !in lines[k]
    ensures Text.SplitOn(Csv.Lines(lines), '\n') == lines + [""]
  {
    LinesAsJoin(lines);
    Text.JoinThenSplit(lines + [""], '\n');
  }

  lemma {:induction false} SomesOfPresent<T>(xs: seq<Option<T>>)
    requires forall k :: 0 <= k < |xs| ==> xs[k].Some?
    ensures |Somes(xs)| == |xs|
    ensures forall k :: 0 <= k < |xs| ==> Somes(xs)[k] == xs[k].value
    decreases |xs|
  {
    if |xs| > 0 {
      SomesOfPresent(xs[1..]);
    }
  }

  lemma {:induction false} SomesDropsNone<T>(xs: seq<Option<T>>)
    ensures Somes(xs + [None]) == Somes(xs)
    decreases |xs|
  {
    if |xs| == 0 {
      var one: seq<Option<T>> := [None];
      assert xs + [None] == one && one[1..] == [];
    } else {
      assert (xs + [None])[1..] == xs[1..] + [None];
      SomesDropsNone(xs[1..]);
    }
  }

  /** The page's blank-line filter keeps every non-blank line and drops the trailing empty piece. */
  lemma NonBlankOfLines(lines: seq<string>)
    requires forall k :: 0 <= k < |lines| ==> Text.Trim(lines[k]) != ""
    ensures Frontend.NonBlankLines(lines + [""]) == lines
  {
    var all := lines + [""];
    var xs := Frontend.MarkNonBlank(all);
    var front := seq(|lines|, k requires 0 <= k < |lines| => Some(lines[k]));
    assert Text.Trim("") == "";
    assert xs == front + [None];
    SomesDropsNone(front);
    SomesOfPresent(front);
  }

  lemma {:induction false} NonBlankOfFull(rows: seq<seq<string>>)
    requires forall k :: 0 <= k < |rows| ==> |rows[k]| > 0
    ensures Results.NonBlank(rows) == rows
    decreases |rows|
  {
    if |rows| > 0 {
      NonBlankOfFull(rows[1..]);
    }
  }

  /** Well-formed plain CSV: every line non-blank and free of quotes and line breaks, header cells
      without surrounding blanks and pairwise different, and data lines as long as the header. */
  predicate PlainCsv(lines: seq<string>) {
    && |lines| >= 1
    && (forall k :: 0 <= k < |lines| ==> Csv.PlainLine(lines[k]) && Text.Trim(lines[k]) != "")
    && (forall j :: 0 <= j < |Text.SplitOn(lines[0], ',')| ==>
          Text.Trim(Text.SplitOn(lines[0], ',')[j]) == Text.SplitOn(lines[0], ',')[j])
    && Results.DistinctHeaders(Text.SplitOn(lines[0], ','))
    && (forall k :: 1 <= k < |lines| ==> |Text.SplitOn(lines[k], ',')| == |Text.SplitOn(lines[0], ',')|)
  }

  lemma ContainsItself(s: string)
    ensures Text.Contains(s, s)
  {
    assert Text.OccursAt(s, s, 0);
  }

  /** The sample both readers make of data line `k` (counting from the first line after the header). */
  function Expected(lines: seq<string>, parse: string -> Option<real>, ti: nat, vi: nat, k: nat)
    : Results.Sample
    requires k + 1 < |lines| && ti < |Text.SplitOn(lines[k + 1], ',')| && vi < |Text.SplitOn(lines[k + 1], ',')|
    requires parse(Text.SplitOn(lines[k + 1], ',')[vi]).Some?
  {
    var cols := Text.SplitOn(lines[k + 1], ',');
    Results.Sample(Some(cols[ti]), parse(cols[vi]).value)
  }

  /** The columns the two readers pick and the values they parse. */
  predicate Agreeable(lines: seq<string>, parse: string -> Option<real>, ti: nat, vi: nat) {
    && PlainCsv(lines)
    && Results.LocateColumn(Text.SplitOn(lines[0], ','), Results.TimeMarker) == Some(ti)
    && Text.SplitOn(lines[0], ',')[ti] == Frontend.ExactTime
    && Results.LocateColumn(Text.SplitOn(lines[0], ','), Results.TemperatureMarker) == Some(vi)
    && Results.LocateColumn(Text.SplitOn(lines[0], ','), Frontend.ValueMarker) == Some(vi)
    && (forall k :: 1 <= k < |lines| ==> parse(Text.SplitOn(lines[k], ',')[vi]).Some?)
  }

  /** `data` holds the expected sample of every data line, in order. */
  predicate ReadsExpected(data: seq<Results.Sample>, lines: seq<string>, parse: string -> Option<real>,
                          ti: nat, vi: nat)
    requires Agreeable(lines, parse, ti, vi)
  {
    |data| == |lines| - 1 && forall k :: 0 <= k < |lines| - 1 ==> data[k] == Expected(lines, parse, ti, vi, k)
  }

  /** The server's header and data records are the split lines. */
  lemma ServerRecords(lines: seq<string>)
    requires PlainCsv(lines)
    ensures |Csv.Parse(Csv.Lines(lines))| == |lines|
    ensures Csv.Parse(Csv.Lines(lines))[0] == Text.SplitOn(lines[0], ',')
    ensures |Results.DataRows(Csv.Lines(lines))| == |lines| - 1
    ensures forall k :: 0 <= k < |lines| - 1 ==>
      Results.DataRows(Csv.Lines(lines))[k] == Text.SplitOn(lines[k + 1], ',')
  {
    var text := Csv.Lines(lines);
    Csv.PlainLinesParse(lines);
    var records := Csv.Parse(text);
    var tail := records[1..];
    forall k | 0 <= k < |tail|
      ensures tail[k] == Text.SplitOn(lines[k + 1], ',') && |tail[k]| > 0
    {
      assert tail[k] == records[k + 1];
    }
    NonBlankOfFull(tail);
  }

  /** Every data record of plain CSV is complete and its temperature parses. */
  lemma ServerRowsComplete(lines: seq<string>, parse: string -> Option<real>, ti: nat, vi: nat)
    requires Agreeable(lines, parse, ti, vi)
    ensures forall row :: row in Results.DataRows(Csv.Lines(lines)) ==>
      |row| == |Text.SplitOn(lines[0], ',')| && vi < |row| && parse(row[vi]).Some?
  {
    ServerRecords(lines);
    var rows := Results.DataRows(Csv.Lines(lines));
    forall row | row in rows
      ensures |row| == |Text.SplitOn(lines[0], ',')| && vi < |row| && parse(row[vi]).Some?
    {
      var k :| 0 <= k < |rows| && rows[k] == row;
      assert row == Text.SplitOn(lines[k + 1], ',');
    }
  }

  /** The server's sample of data record `k` is the expected one. */
  lemma ServerSamples(lines: seq<string>, parse: string -> Option<real>, ti: nat, vi: nat,
                      rows: seq<seq<string>>, data: seq<Results.Sample>)
    requires Agreeable(lines, parse, ti, vi)
    requires |rows| == |lines| - 1 && |data| == |rows|
    requires forall k :: 0 <= k < |rows| ==> rows[k] == Text.SplitOn(lines[k + 1], ',')
    requires forall k :: 0 <= k < |rows| ==>
      ti < |rows[k]| && vi < |rows[k]| && data[k] == Results.Sample(Some(rows[k][ti]), parse(rows[k][vi]).value)
    ensures forall k :: 0 <= k < |lines| - 1 ==> data[k] == Expected(lines, parse, ti, vi, k)
  {
    forall k | 0 <= k < |lines| - 1
      ensures data[k] == Expected(lines, parse, ti, vi, k)
    {
      assert rows[k] == Text.SplitOn(lines[k + 1], ',');
    }
  }

  /** The server reads one sample per data line. */
  lemma ServerReads(lines: seq<string>, parse: string -> Option<real>, ti: nat, vi: nat)
    requires Agreeable(lines, parse, ti, vi)
    ensures Results.Extract(Csv.Lines(lines), parse).Series?
    ensures ReadsExpected(Results.Extract(Csv.Lines(lines), parse).data, lines, parse, ti, vi)
  {
    var text := Csv.Lines(lines);
    ServerRecords(lines);
    ServerRowsComplete(lines, parse, ti, vi);
    Results.SeriesOfWellFormedCsv(text, parse, ti, vi);
    var rows := Results.DataRows(text);
    var data := Results.Extract(text, parse).data;
    var width := |Text.SplitOn(lines[0], ',')|;
    assert ti < width && vi < width;
    forall k | 0 <= k < |rows|
      ensures ti < |rows[k]| && vi < |rows[k]|
    {
      assert rows[k] in rows;
    }
    ServerSamples(lines, parse, ti, vi, rows, data);
  }

  lemma PageFindsLines(lines: seq<string>)
    requires PlainCsv(lines)
    ensures Frontend.NonBlankLines(Text.SplitOn(Csv.Lines(lines), '\n')) == lines
  {
    forall k | 0 <= k < |lines| ensures '\n' !in lines[k] {
      assert Csv.PlainLine(lines[k]);
    }
    SplitLines(lines);
    NonBlankOfLines(lines);
  }

  lemma PageFindsHeader(lines: seq<string>)
    requires PlainCsv(lines)
    ensures Frontend.Headers(lines[0]) == Text.SplitOn(lines[0], ',')
  {
    var header := Text.SplitOn(lines[0], ',');
    var trimmed := Frontend.Headers(lines[0]);
    assert |trimmed| == |header|;
    forall j | 0 <= j < |header| ensures trimmed[j] == header[j] {
    }
  }

  lemma PageFindsTime(header: seq<string>, ti: nat)
    requires Results.LocateColumn(header, Results.TimeMarker) == Some(ti)
    requires header[ti] == Frontend.ExactTime
    ensures Frontend.IndexOf(header, Frontend.ExactTime) == Some(ti)
  {
    ContainsItself(Frontend.ExactTime);
  }

  /** The page finds the same lines, the same header and the same two columns. */
  lemma PageFindsColumns(lines: seq<string>, parse: string -> Option<real>, ti: nat, vi: nat)
    requires Agreeable(lines, parse, ti, vi)
    ensures Frontend.NonBlankLines(Text.SplitOn(Csv.Lines(lines), '\n')) == lines
    ensures Frontend.Headers(lines[0]) == Text.SplitOn(lines[0], ',')
    ensures Frontend.IndexOf(Text.SplitOn(lines[0], ','), Frontend.ExactTime) == Some(ti)
  {
    PageFindsLines(lines);
    PageFindsHeader(lines);
    PageFindsTime(Text.SplitOn(lines[0], ','), ti);
  }

  /** With the header and columns found, the page's reader is the filtered per-line reading. */
  lemma PageUnfolds(lines: seq<string>, parse: string -> Option<real>, ti: nat, vi: nat)
    requires |lines| >= 1
    requires Frontend.Headers(lines[0]) == Text.SplitOn(lines[0], ',')
    requires Frontend.IndexOf(Text.SplitOn(lines[0], ','), Frontend.ExactTime) == Some(ti)
    requires Results.LocateColumn(Text.SplitOn(lines[0], ','), Frontend.ValueMarker) == Some(vi)
    ensures Frontend.ParseLines(lines, parse) == Some(Somes(Frontend.ReadLines(lines[1..], ti, vi, parse)))
  {
  }

  /** Each data line is read into the expected sample. */
  lemma PageLines(lines: seq<string>, parse: string -> Option<real>, ti: nat, vi: nat)
    requires Agreeable(lines, parse, ti, vi)
    ensures var read := Frontend.ReadLines(lines[1..], ti, vi, parse);
            forall k :: 0 <= k < |read| ==> read[k] == Some(Expected(lines, parse, ti, vi, k))
  {
    var read := Frontend.ReadLines(lines[1..], ti, vi, parse);
    var width := |Text.SplitOn(lines[0], ',')|;
    assert ti < width && vi < width;
    forall k | 0 <= k < |read|
      ensures read[k] == Some(Expected(lines, parse, ti, vi, k))
    {
      var line := lines[k + 1];
      assert lines[1..][k] == line;
      assert |Text.SplitOn(line, ',')| == width;
    }
  }

  /** The page reads one sample per data line. */
  lemma PageReads(lines: seq<string>, parse: string -> Option<real>, ti: nat, vi: nat)
    requires Agreeable(lines, parse, ti, vi)
    ensures Frontend.ParseEnergyPlusCsv(Csv.Lines(lines), parse).Some?
    ensures ReadsExpected(Frontend.ParseEnergyPlusCsv(Csv.Lines(lines), parse).value, lines, parse, ti, vi)
  {
    PageFindsColumns(lines, parse, ti, vi);
    assert Frontend.ParseEnergyPlusCsv(Csv.Lines(lines), parse) == Frontend.ParseLines(lines, parse);
    PageUnfolds(lines, parse, ti, vi);
    PageLines(lines, parse, ti, vi);
    SomesOfPresent(Frontend.ReadLines(lines[1..], ti, vi, parse));
  }

  /** Python's `float` and JavaScript's `parseFloat` agree on the value cells of the data lines. */
  predicate ParsersAgree(lines: seq<string>, pyFloat: string -> Option<real>,
                         jsParseFloat: string -> Option<real>, vi: nat)
    requires PlainCsv(lines)
  {
    forall k :: 1 <= k < |lines| && vi < |Text.SplitOn(lines[k], ',')| ==>
      jsParseFloat(Text.SplitOn(lines[k], ',')[vi]) == pyFloat(Text.SplitOn(lines[k], ',')[vi])
  }

  /** Where the two parsers agree on the value cells, the page expects what the server expects. */
  lemma AgreeingParsers(lines: seq<string>, pyFloat: string -> Option<real>,
                        jsParseFloat: string -> Option<real>, ti: nat, vi: nat)
    requires Agreeable(lines, pyFloat, ti, vi) && ParsersAgree(lines, pyFloat, jsParseFloat, vi)
    ensures Agreeable(lines, jsParseFloat, ti, vi)
    ensures forall k :: 0 <= k < |lines| - 1 ==>
      Expected(lines, jsParseFloat, ti, vi, k) == Expected(lines, pyFloat, ti, vi, k)
  {
    var width := |Text.SplitOn(lines[0], ',')|;
    assert ti < width && vi < width;
    forall k | 1 <= k < |lines|
      ensures jsParseFloat(Text.SplitOn(lines[k], ',')[vi]) == pyFloat(Text.SplitOn(lines[k], ',')[vi])
    {
      assert |Text.SplitOn(lines[k], ',')| == width;
    }
  }

  /** With JavaScript's parser agreeing on the value cells, the page reads the samples the
      server expects. */
  lemma PageReadsWith(lines: seq<string>, pyFloat: string -> Option<real>,
                      jsParseFloat: string -> Option<real>, ti: nat, vi: nat)
    requires Agreeable(lines, pyFloat, ti, vi) && ParsersAgree(lines, pyFloat, jsParseFloat, vi)
    ensures Frontend.ParseEnergyPlusCsv(Csv.Lines(lines), jsParseFloat).Some?
    ensures ReadsExpected(Frontend.ParseEnergyPlusCsv(Csv.Lines(lines), jsParseFloat).value, lines, pyFloat, ti, vi)
  {
    AgreeingParsers(lines, pyFloat, jsParseFloat, ti, vi);
    PageReads(lines, jsParseFloat, ti, vi);
    ExpectedUnderAgreement(Frontend.ParseEnergyPlusCsv(Csv.Lines(lines), jsParseFloat).value, lines,
                           pyFloat, jsParseFloat, ti, vi);
  }

  lemma ExpectedUnderAgreement(data: seq<Results.Sample>, lines: seq<string>, pyFloat: string -> Option<real>,
                               jsParseFloat: string -> Option<real>, ti: nat, vi: nat)
    requires Agreeable(lines, pyFloat, ti, vi) && Agreeable(lines, jsParseFloat, ti, vi)
    requires forall k :: 0 <= k < |lines| - 1 ==>
      Expected(lines, jsParseFloat, ti, vi, k) == Expected(lines, pyFloat, ti, vi, k)
    requires ReadsExpected(data, lines, jsParseFloat, ti, vi)
    ensures ReadsExpected(data, lines, pyFloat, ti, vi)
  {
  }

  /** On plain CSV whose first "Date/Time" header is exactly that, whose first "Temperature" header
      is also the first "Zone Air Temperature" header, whose values all parse with Python's `float`,
      and where JavaScript's `parseFloat` reads those values alike, the page's reader and the
      server's reader produce the same series. */
  lemma NaiveReaderAgrees(lines: seq<string>, pyFloat: string -> Option<real>,
                          jsParseFloat: string -> Option<real>, ti: nat, vi: nat)
    requires Agreeable(lines, pyFloat, ti, vi)
    requires ParsersAgree(lines, pyFloat, jsParseFloat, vi)
    ensures Results.Extract(Csv.Lines(lines), pyFloat).Series?
    ensures Frontend.ParseEnergyPlusCsv(Csv.Lines(lines), jsParseFloat)
         == Some(Results.Extract(Csv.Lines(lines), pyFloat).data)
  {
    var text := Csv.Lines(lines);
    ServerReads(lines, pyFloat, ti, vi);
    PageReadsWith(lines, pyFloat, jsParseFloat, ti, vi);
    var server := Results.Extract(text, pyFloat).data;
    var page := Frontend.ParseEnergyPlusCsv(text, jsParseFloat).value;
    SameSeries(server, page, lines, pyFloat, ti, vi);
  }

  /** Two series that both hold the expected sample at every data line are the same series. */
  lemma SameSeries(server: seq<Results.Sample>, page: seq<Results.Sample>, lines: seq<string>,
                   parse: string -> Option<real>, ti: nat, vi: nat)
    requires Agreeable(lines, parse, ti, vi)
    requires ReadsExpected(server, lines, parse, ti, vi) && ReadsExpected(page, lines, parse, ti, vi)
    ensures server == page
  {
    assert forall k :: 0 <= k < |page| ==> server[k] == page[k];
  }
}

=== FILE: results.dfy ===
/**
 * The result query (`get_results` in backend/app/main.py): a pure read of the job's workspace
 * that runs its checks in a fixed order and either reports the first one that fails or
 * returns the temperature series read from the engine's CSV output.
 */
module Results {
  import opened Wrappers
  import Text
  import Csv
  import opened Workspace

  /** The engine's marker for a fatal problem in `eplusout.err` (two spaces before the closing stars). */
  const SevereMarker := "** Severe  **"
  const ExcerptLimit: nat := 1000
  const TimeMarker := "Date/Time"
  const TemperatureMarker := "Temperature"

  /** One point of the series; `time` is `None` when the record is too short to hold it (JSON null). */
  datatype Sample = Sample(time: Option<string>, value: real)

  datatype QueryOutcome =
    | DirNotFound(path: string)             // 404
    | EngineErrors(excerpt: string)         // 500, the first characters of the error log
    | CsvNotFound(available: seq<string>)   // 404, the directory listing
    | CsvEmpty                              // 500
    | ColumnsNotFound(headers: seq<string>) // 500, every header
    | BadValue(value: string)               // 500, the text `float` rejected
    | Unhandled                             // `float(None)` raises TypeError, which nothing catches
    | Series(data: seq<Sample>)             // 200

  function StatusCode(o: QueryOutcome): int {
    match o
    case DirNotFound(_) => 404
    case CsvNotFound(_) => 404
    case Series(_) => 200
    case _ => 500
  }

  /** The response's `detail`, for the outcomes whose wording does not go through Python's `repr`. */
  function Detail(o: QueryOutcome): Option<string> {
    match o
    case DirNotFound(p) => Some("Results directory not found at " + p)
    case EngineErrors(e) => Some("EnergyPlus reported errors:\n" + e)
    case CsvNotFound(names) => Some("CSV output not found. Available files:\n" + Text.JoinWith("\n", names))
    case CsvEmpty => Some("CSV file is empty")
    case _ => None
  }

  predicate HasSevere(log: string) {
    Text.Contains(log, SevereMarker)
  }

  /** Python's `errors[:1000]`: the first thousand characters, or all of a shorter log. */
  function Excerpt(log: string): (r: string)
    ensures |r| == if |log| < ExcerptLimit then |log| else ExcerptLimit
    ensures r <= log
    ensures |log| <= ExcerptLimit ==> r == log
  {
    Text.Take(log, ExcerptLimit)
  }

  /** `eplusout.err` as the query and the run read it: opened in text mode, so its line breaks
      arrive as "\n" (the CSV, opened with `newline=""`, is read as it is). */
  function ErrorLog(files: seq<File>): (r: Option<string>)
    ensures r.None? <==> Lookup(files, ErrName).None?
    ensures r.Some? ==> '\r' !in r.value
  {
    match Lookup(files, ErrName)
    case None => None
    case Some(raw) => Some(Text.UniversalNewlines(raw))
  }

  /** The directory holds an error log that reports a severe error. */
  predicate SevereLogged(files: seq<File>) {
    ErrorLog(files).Some? && HasSevere(ErrorLog(files).value)
  }

  // ---------------------------------------------------------------------------------------
  // Locating a column by role: the first header that contains the marker.

  function FirstContaining(headers: seq<string>, marker: string, from: nat): (r: Option<nat>)
    requires from <= |headers|
    ensures r.Some? ==> from <= r.value < |headers| && Text.Contains(headers[r.value], marker)
    ensures r.Some? ==> forall j :: from <= j < r.value ==> !Text.Contains(headers[j], marker)
    ensures r.None? <==> forall j :: from <= j < |headers| ==> !Text.Contains(headers[j], marker)
    decreases |headers| - from
  {
    if from == |headers| then None
    else if Text.Contains(headers[from], marker) then Some(from)
    else FirstContaining(headers, marker, from + 1)
  }

  /** The index of the first header containing `marker`; none exactly when no header contains it. */
  function LocateColumn(headers: seq<string>, marker: string): (r: Option<nat>)
    ensures r.Some? ==> r.value < |headers| && Text.Contains(headers[r.value], marker)
    ensures r.Some? ==> forall j :: 0 <= j < r.value ==> !Text.Contains(headers[j], marker)
    ensures r.None? <==> forall j :: 0 <= j < |headers| ==> !Text.Contains(headers[j], marker)
  {
    FirstContaining(headers, marker, 0)
  }

  // ---------------------------------------------------------------------------------------
  // `csv.DictReader`: the first record names the columns, blank records are skipped, and each
  // record becomes a dictionary from column name to cell.

  /** The records after the header that are not blank, in file order. */
  function NonBlank(rows: seq<seq<string>>): (r: seq<seq<string>>)
    ensures |r| <= |rows|
    ensures forall k :: 0 <= k < |r| ==> |r[k]| > 0
    ensures forall x :: x in r <==> x in rows && |x| > 0
  {
    if |rows| == 0 then []
    else if |rows[0]| == 0 then NonBlank(rows[1..])
    else [rows[0]] + NonBlank(rows[1..])
  }

  /** Each record, or `None` where it is blank. */
  function MarkRecords(rows: seq<seq<string>>): (r: seq<Option<seq<string>>>)
    ensures |r| == |rows|
    ensures forall k :: 0 <= k < |rows| ==> r[k] == if |rows[k]| > 0 then Some(rows[k]) else None
  {
    seq(|rows|, k requires 0 <= k < |rows| => if |rows[k]| > 0 then Some(rows[k]) else None)
  }

  lemma {:induction false} NonBlankIsFilter(rows: seq<seq<string>>)
    ensures NonBlank(rows) == Somes(MarkRecords(rows))
    decreases |rows|
  {
    if |rows| > 0 {
      var xs := MarkRecords(rows);
      NonBlankIsFilter(rows[1..]);
      assert xs[1..] == MarkRecords(rows[1..]);
      if |rows[0]| > 0 {
        assert Somes(xs) == [rows[0]] + Somes(xs[1..]);
      } else {
        assert Somes(xs) == Somes(xs[1..]);
      }
    }
  }

  /** The blank-record filter keeps file order and multiplicity: the kept records sit at
      increasing positions of the input, and every non-blank record's position is among them. */
  lemma NonBlankInOrder(rows: seq<seq<string>>)
    ensures var idx := SomeIndices(MarkRecords(rows));
            && |idx| == |NonBlank(rows)|
            && (forall i, j :: 0 <= i < j < |idx| ==> idx[i] < idx[j])
            && (forall j :: 0 <= j < |idx| ==> idx[j] < |rows| && NonBlank(rows)[j] == rows[idx[j]])
            && (forall k :: 0 <= k < |rows| && |rows[k]| > 0 ==> k in idx)
  {
    var xs := MarkRecords(rows);
    NonBlankIsFilter(rows);
    SomeIndicesSpec(xs);
    var idx := SomeIndices(xs);
    forall j | 0 <= j < |idx|
      ensures idx[j] < |rows| && NonBlank(rows)[j] == rows[idx[j]]
    {
      assert xs[idx[j]] == Some(NonBlank(rows)[j]);
    }
    forall k | 0 <= k < |rows| && |rows[k]| > 0
      ensures k in idx
    {
      assert xs[k].Some?;
    }
  }

  /** `dict(zip(keys, values))` added to `m`: later pairs overwrite earlier ones. */
  function ZipInto(m: map<string, Option<string>>, keys: seq<string>, values: seq<string>)
    : (r: map<string, Option<string>>)
    ensures forall k :: k in r <==> k in m || exists i :: 0 <= i < |keys| && i < |values| && keys[i] == k
    decreases |keys|
  {
    if |keys| == 0 || |values| == 0 then m
    else ZipInto(m[keys[0] := Some(values[0])], keys[1..], values[1..])
  }

  /** Sets every key of `keys` to `None` (DictReader's `restval`). */
  function FillRest(m: map<string, Option<string>>, keys: seq<string>): (r: map<string, Option<string>>)
    ensures forall k :: k in r <==> k in m || k in keys
    ensures forall k :: k in keys ==> r[k] == None
    ensures forall k :: k in m && k !in keys ==> r[k] == m[k]
    decreases |keys|
  {
    if |keys| == 0 then m else FillRest(m[keys[0] := None], keys[1..])
  }

  /** The dictionary DictReader builds for one record; a record longer than the header puts its
      extra cells under the key `None`, which no column name can equal, so that entry is omitted. */
  function RowDict(header: seq<string>, row: seq<string>): (r: map<string, Option<string>>)
    ensures forall k :: k in r <==> k in header
  {
    var d := ZipInto(map[], header, row);
    if |header| > |row| then FillRest(d, header[|row|..]) else d
  }

  predicate DistinctHeaders(header: seq<string>) {
    forall i, j :: 0 <= i < j < |header| ==> header[i] != header[j]
  }

  lemma {:induction false} ZipValue(m: map<string, Option<string>>, keys: seq<string>, values: seq<string>, j: nat)
    requires DistinctHeaders(keys)
    requires j < |keys| && j < |values|
    ensures keys[j] in ZipInto(m, keys, values) && ZipInto(m, keys, values)[keys[j]] == Some(values[j])
    decreases |keys|
  {
    var m' := m[keys[0] := Some(values[0])];
    if j == 0 {
      ZipKeeps(m', keys[1..], values[1..], keys[0]);
    } else {
      ZipValue(m', keys[1..], values[1..], j - 1);
    }
  }

  lemma {:induction false} ZipKeeps(m: map<string, Option<string>>, keys: seq<string>, values: seq<string>, k: string)
    requires k in m && k !in keys
    ensures k in ZipInto(m, keys, values) && ZipInto(m, keys, values)[k] == m[k]
    decreases |keys|
  {
    if |keys| > 0 && |values| > 0 {
      assert k !in keys[1..] by {
        assert forall x :: x in keys[1..] ==> x in keys;
      }
      ZipKeeps(m[keys[0] := Some(values[0])], keys[1..], values[1..], k);
    }
  }

  /** With distinct column names, a column's entry is its cell, or `None` past the record's end. */
  lemma CellOfColumn(header: seq<string>, row: seq<string>, j: nat)
    requires DistinctHeaders(header) && j < |header|
    ensures RowDict(header, row)[header[j]] == if j < |row| then Some(row[j]) else None
  {
    var d := ZipInto(map[], header, row);
    if j < |row| {
      ZipValue(map[], header, row, j);
      if |header| > |row| {
        assert header[j] !in header[|row|..] by {
          forall x | x in header[|row|..]
            ensures x != header[j]
          {
            var i :| 0 <= i < |header| - |row| && header[|row|..][i] == x;
            assert x == header[|row| + i];
          }
        }
      }
    } else {
      assert header[j] == header[|row|..][j - |row|];
    }
  }

  // ---------------------------------------------------------------------------------------
  // Reading the series: all or nothing.

  datatype RowResult = Good(sample: Sample) | Rejected(text: string) | NoValue

  /** `float(row[temp_col])`, then `row[time_col]`; `parse` stands for Python's `float` on text. */
  function ReadRow(header: seq<string>, tempCol: string, timeCol: string, row: seq<string>,
                   parse: string -> Option<real>): (r: RowResult)
    requires tempCol in header && timeCol in header
    ensures r.NoValue? <==> RowDict(header, row)[tempCol].None?
    ensures r.Rejected? ==> RowDict(header, row)[tempCol] == Some(r.text) && parse(r.text).None?
    ensures r.Good? ==> (RowDict(header, row)[tempCol].Some?
      && parse(RowDict(header, row)[tempCol].value) == Some(r.sample.value)
      && r.sample.time == RowDict(header, row)[timeCol])
  {
    var d := RowDict(header, row);
    match d[tempCol]
    case None => NoValue
    case Some(text) =>
      match parse(text)
      case None => Rejected(text)
      case Some(x) => Good(Sample(d[timeCol], x))
  }

  /** With distinct column names, reading a record through its dictionary is reading it by
      position: no value exactly when the record stops before the temperature column, otherwise
      the temperature cell as `float` reads it, paired with the time cell if the record reaches it. */
  lemma ReadRowByPosition(header: seq<string>, row: seq<string>, tempIdx: nat, timeIdx: nat,
                          parse: string -> Option<real>)
    requires DistinctHeaders(header) && tempIdx < |header| && timeIdx < |header|
    ensures ReadRow(header, header[tempIdx], header[timeIdx], row, parse)
      == if tempIdx >= |row| then NoValue
         else if parse(row[tempIdx]).None? then Rejected(row[tempIdx])
         else Good(Sample(if timeIdx < |row| then Some(row[timeIdx]) else None, parse(row[tempIdx]).value))
  {
    CellOfColumn(header, row, tempIdx);
    CellOfColumn(header, row, timeIdx);
  }

  function FailureOf(rr: RowResult): QueryOutcome
    requires !rr.Good?
  {
    if rr.NoValue? then Unhandled else BadValue(rr.text)
  }

  /** Every record converted in order, or the first failure and no series at all. */
  function Collect(results: seq<RowResult>): (r: QueryOutcome)
    ensures r.Series? || r.BadValue? || r.Unhandled?
    ensures r.Series? <==> forall k :: 0 <= k < |results| ==> results[k].Good?
    ensures r.Series? ==> |r.data| == |results|
    ensures r.Series? ==> forall k :: 0 <= k < |results| ==> r.data[k] == results[k].sample
    ensures !r.Series? ==> exists k :: (0 <= k < |results|
      && (forall j :: 0 <= j < k ==> results[j].Good?)
      && !results[k].Good? && r == FailureOf(results[k]))
    decreases |results|
  {
    if |results| == 0 then Series([])
    else if !results[0].Good? then FailureOf(results[0])
    else
      var rest := Collect(results[1..]);
      if rest.Series? then Series([results[0].sample] + rest.data)
      else
        ghost var k :| 0 <= k < |results| - 1
          && (forall j :: 0 <= j < k ==> results[1..][j].Good?)
          && !results[1..][k].Good? && rest == FailureOf(results[1..][k]);
        assert forall j :: 0 <= j < k + 1 ==> results[j].Good? by {
          forall j | 0 <= j < k + 1
            ensures results[j].Good?
          {
            if j > 0 {
              assert results[j] == results[1..][j - 1];
            }
          }
        }
        assert results[k + 1] == results[1..][k];
        rest
  }

  /** Each record read on its own, in file order. */
  function ReadRows(header: seq<string>, tempCol: string, timeCol: string, rows: seq<seq<string>>,
                    parse: string -> Option<real>): (r: seq<RowResult>)
    requires tempCol in header && timeCol in header
    ensures |r| == |rows|
    ensures forall k :: 0 <= k < |rows| ==> r[k] == ReadRow(header, tempCol, timeCol, rows[k], parse)
  {
    seq(|rows|, k requires 0 <= k < |rows| => ReadRow(header, tempCol, timeCol, rows[k], parse))
  }

  /** The CSV's records after the header, without the blank ones. */
  function DataRows(text: string): seq<seq<string>> {
    var records := Csv.Parse(text);
    if |records| == 0 then [] else NonBlank(records[1..])
  }

  /** The CSV part of the query: header checks, column lookup, then the records. */
  function Extract(text: string, parse: string -> Option<real>): (r: QueryOutcome)
    ensures r.CsvEmpty? <==> |Csv.Parse(text)| == 0 || |Csv.Parse(text)[0]| == 0
    ensures r.ColumnsNotFound? ==> r.headers == Csv.Parse(text)[0]
    ensures r.ColumnsNotFound? <==> (!r.CsvEmpty?
      && (LocateColumn(Csv.Parse(text)[0], TemperatureMarker).None?
          || LocateColumn(Csv.Parse(text)[0], TimeMarker).None?))
    ensures r.Series? ==> |r.data| == |DataRows(text)|
    ensures r.Series? || r.CsvEmpty? || r.ColumnsNotFound? || r.BadValue? || r.Unhandled?
  {
    var records := Csv.Parse(text);
    if |records| == 0 || |records[0]| == 0 then CsvEmpty
    else
      var header := records[0];
      var temp := LocateColumn(header, TemperatureMarker);
      var time := LocateColumn(header, TimeMarker);
      if temp.None? || time.None? then ColumnsNotFound(header)
      else Collect(ReadRows(header, header[temp.value], header[time.value], DataRows(text), parse))
  }

  /** For a CSV with distinct column names whose records are all complete and numeric, the series
      has one sample per data record, in file order, with the time cell copied verbatim. */
  lemma SeriesOfWellFormedCsv(text: string, parse: string -> Option<real>, timeIdx: nat, tempIdx: nat)
    requires |Csv.Parse(text)| > 0 && DistinctHeaders(Csv.Parse(text)[0])
    requires LocateColumn(Csv.Parse(text)[0], TimeMarker) == Some(timeIdx)
    requires LocateColumn(Csv.Parse(text)[0], TemperatureMarker) == Some(tempIdx)
    requires forall row :: row in DataRows(text) ==>
      |row| == |Csv.Parse(text)[0]| && parse(row[tempIdx]).Some?
    ensures Extract(text, parse).Series?
    ensures |Extract(text, parse).data| == |DataRows(text)|
    ensures forall k :: 0 <= k < |DataRows(text)| ==>
      Extract(text, parse).data[k]
        == Sample(Some(DataRows(text)[k][timeIdx]), parse(DataRows(text)[k][tempIdx]).value)
  {
    var header := Csv.Parse(text)[0];
    var rows := DataRows(text);
    var results := ReadRows(header, header[tempIdx], header[timeIdx], rows, parse);
    CompleteNumericRowsRead(header, rows, tempIdx, timeIdx, parse);
    assert Extract(text, parse) == Collect(results);
  }

  /** Complete records whose temperatures parse are each read into their sample. */
  lemma CompleteNumericRowsRead(header: seq<string>, rows: seq<seq<string>>, tempIdx: nat, timeIdx: nat,
                                parse: string -> Option<real>)
    requires DistinctHeaders(header) && tempIdx < |header| && timeIdx < |header|
    requires forall row :: row in rows ==> |row| == |header| && parse(row[tempIdx]).Some?
    ensures var results := ReadRows(header, header[tempIdx], header[timeIdx], rows, parse);
            forall k :: 0 <= k < |rows| ==>
              results[k] == Good(Sample(Some(rows[k][timeIdx]), parse(rows[k][tempIdx]).value))
  {
    forall k | 0 <= k < |rows|
      ensures ReadRow(header, header[tempIdx], header[timeIdx], rows[k], parse)
           == Good(Sample(Some(rows[k][timeIdx]), parse(rows[k][tempIdx]).value))
    {
      assert rows[k] in rows;
      ReadRowByPosition(header, rows[k], tempIdx, timeIdx, parse);
    }
  }

  /** When no record lacks a temperature, a rejected one makes the whole collection a bad value. */
  lemma CollectRejects(results: seq<RowResult>, k: nat)
    requires k < |results| && results[k].Rejected?
    requires forall i :: 0 <= i < |results| ==> !results[i].NoValue?
    ensures Collect(results).BadValue?
  {
  }

  /** Complete records never lack a temperature, and a record whose temperature does not parse is
      rejected. */
  lemma CompleteRowsRead(header: seq<string>, rows: seq<seq<string>>, tempIdx: nat, timeIdx: nat,
                         parse: string -> Option<real>, k: nat)
    requires DistinctHeaders(header) && tempIdx < |header| && timeIdx < |header|
    requires forall row :: row in rows ==> |row| == |header|
    requires k < |rows| && parse(rows[k][tempIdx]).None?
    ensures var results := ReadRows(header, header[tempIdx], header[timeIdx], rows, parse);
            && (forall i :: 0 <= i < |results| ==> !results[i].NoValue?)
            && results[k].Rejected?
  {
    var results := ReadRows(header, header[tempIdx], header[timeIdx], rows, parse);
    forall i | 0 <= i < |rows|
      ensures !results[i].NoValue?
    {
      assert rows[i] in rows;
      CellOfColumn(header, rows[i], tempIdx);
    }
    assert rows[k] in rows;
    CellOfColumn(header, rows[k], tempIdx);
  }

  /** With complete records, a single rejected temperature anywhere fails the whole extraction with
      a bad-value error: no partial series is returned. */
  lemma OneBadValueFailsAll(text: string, parse: string -> Option<real>, tempIdx: nat, k: nat)
    requires |Csv.Parse(text)| > 0 && DistinctHeaders(Csv.Parse(text)[0])
    requires LocateColumn(Csv.Parse(text)[0], TimeMarker).Some?
    requires LocateColumn(Csv.Parse(text)[0], TemperatureMarker) == Some(tempIdx)
    requires k < |DataRows(text)|
    requires forall row :: row in DataRows(text) ==> |row| == |Csv.Parse(text)[0]|
    requires parse(DataRows(text)[k][tempIdx]).None?
    ensures Extract(text, parse).BadValue?
  {
    var header := Csv.Parse(text)[0];
    var rows := DataRows(text);
    var timeIdx := LocateColumn(header, TimeMarker).value;
    var results := ReadRows(header, header[tempIdx], header[timeIdx], rows, parse);
    CompleteRowsRead(header, rows, tempIdx, timeIdx, parse, k);
    CollectRejects(results, k);
    assert Extract(text, parse) == Collect(results);
  }

  /** The first record that does not convert decides the collection, whatever follows it. */
  lemma CollectFirstFailure(results: seq<RowResult>, k: nat)
    requires k < |results| && !results[k].Good?
    requires forall j :: 0 <= j < k ==> results[j].Good?
    ensures Collect(results) == FailureOf(results[k])
  {
    var r := Collect(results);
    var first :| 0 <= first < |results| && (forall j :: 0 <= j < first ==> results[j].Good?)
      && !results[first].Good? && r == FailureOf(results[first]);
    assert first == k;
  }

  /** The first data record whose temperature is missing or does not parse decides the answer:
      a record too short to reach the column gives the uncaught error, an unparsable text the
      bad-value error with that text, regardless of the records after it. */
  lemma FirstFailingRecordDecides(text: string, parse: string -> Option<real>, timeIdx: nat,
                                  tempIdx: nat, k: nat)
    requires |Csv.Parse(text)| > 0 && DistinctHeaders(Csv.Parse(text)[0])
    requires LocateColumn(Csv.Parse(text)[0], TimeMarker) == Some(timeIdx)
    requires LocateColumn(Csv.Parse(text)[0], TemperatureMarker) == Some(tempIdx)
    requires k < |DataRows(text)|
    requires forall j :: 0 <= j < k ==>
      tempIdx < |DataRows(text)[j]| && parse(DataRows(text)[j][tempIdx]).Some?
    requires tempIdx >= |DataRows(text)[k]| || parse(DataRows(text)[k][tempIdx]).None?
    ensures tempIdx >= |DataRows(text)[k]| ==> Extract(text, parse) == Unhandled
    ensures tempIdx < |DataRows(text)[k]| ==> Extract(text, parse) == BadValue(DataRows(text)[k][tempIdx])
  {
    var header := Csv.Parse(text)[0];
    var rows := DataRows(text);
    var results := ReadRows(header, header[tempIdx], header[timeIdx], rows, parse);
    forall j | 0 <= j < k
      ensures results[j].Good?
    {
      ReadRowByPosition(header, rows[j], tempIdx, timeIdx, parse);
    }
    ReadRowByPosition(header, rows[k], tempIdx, timeIdx, parse);
    CollectFirstFailure(results, k);
    assert Extract(text, parse) == Collect(results);
  }

  /** The query: directory, then error log, then CSV presence, then the CSV's content. */
  function Query(snap: Snapshot, runId: string, parse: string -> Option<real>): (r: QueryOutcome)
    ensures r.DirNotFound? <==> snap.Missing?
    ensures r.DirNotFound? ==> r.path == "/tmp/" + runId
    ensures r.EngineErrors? <==> snap.Present? && SevereLogged(snap.files)
    ensures r.EngineErrors? ==> r.excerpt == Excerpt(ErrorLog(snap.files).value)
    ensures r.CsvNotFound? <==> snap.Present? && !r.EngineErrors? && Lookup(snap.files, CsvName).None?
    ensures r.CsvNotFound? ==> r.available == Names(snap.files)
    ensures snap.Present? && !r.EngineErrors? && Lookup(snap.files, CsvName).Some? ==>
      r == Extract(Lookup(snap.files, CsvName).value, parse)
  {
    match snap
    case Missing => DirNotFound(JobDir(runId))
    case Present(files) =>
      if SevereLogged(files) then EngineErrors(Excerpt(ErrorLog(files).value))
      else
        match Lookup(files, CsvName)
        case None => CsvNotFound(Names(files))
        case Some(text) => Extract(text, parse)
  }
}

=== FILE: runner.dfy ===
/**
 * The background job (`run_simulation` in backend/app/runner.py): resolve the engine executable,
 * probe it, check that both inputs exist, run the engine into the job directory, then judge its
 * output. Only a clean run writes the completion marker `done.txt`.
 *
 * The process calls are parameters: what the `--version` probe did, and what the engine run did
 * (failed to start, hit the five-minute timeout, or exited with a code, leaving the directory's
 * files behind).
 */
module Runner {
  import opened Wrappers
  import Text
  import opened Workspace
  import Results

  const DefaultExe := "/usr/local/bin/energyplus"
  const FailurePrefix := "Simulation failed: "
  const TimeoutText := "EnergyPlus timed out after 5 minutes"

  /** `energyplus_path or os.getenv("ENERGYPLUS_PATH", default)`: an empty override counts as
      absent, but a variable set to the empty string is used as it is. */
  function ResolveExe(override: Option<string>, env: Option<string>): (r: string)
    ensures override.Some? && override.value != "" ==> r == override.value
    ensures (override.None? || override.value == "") && env.Some? ==> r == env.value
    ensures (override.None? || override.value == "") && env.None? ==> r == DefaultExe
  {
    if override.Some? && override.value != "" then override.value
    else env.GetOr(DefaultExe)
  }

  /** The engine's command line: weather file, output directory, readable variable names, model. */
  function Command(exe: string, weatherPath: string, tmpDir: string, idfPath: string): (r: seq<string>)
    ensures |r| == 7 && r[0] == exe
    ensures r[1] == "-w" && r[2] == weatherPath
    ensures r[3] == "-d" && r[4] == tmpDir
    ensures r[5] == "-r" && r[6] == idfPath
  {
    [exe, "-w", weatherPath, "-d", tmpDir, "-r", idfPath]
  }

  /** What `exe --version` did: it ran (whatever it printed or returned), or raised (no such file). */
  datatype Probe = ProbeRan | ProbeRaised(reason: string)

  /** What the engine run did, with the job directory's files afterwards where it got that far. */
  datatype EngineRun =
    | LaunchRaised(reason: string)
    | TimedOut(partial: seq<File>)
    | Exited(code: int, after: seq<File>)

  datatype Failure =
    | ProbeFailed(reason: string)
    | InputMissing(path: string)
    | LaunchFailed(reason: string)
    | Timeout
    | NonZeroExit(code: int)
    | MissingCsv(path: string)
    | SevereErrors(excerpt: string)

  /** The text of the exception the job ends with: the failure's own wording behind the generic
      prefix, except for the timeout, whose fixed sentence is raised as it is. */
  function Message(f: Failure): (r: string)
    ensures f.Timeout? ==> r == TimeoutText
    ensures !f.Timeout? ==> FailurePrefix <= r
    ensures f.InputMissing? ==> r == FailurePrefix + "Input file not found: " + f.path
    ensures f.NonZeroExit? ==> r == FailurePrefix + "EnergyPlus failed (code " + Text.IntToDecimal(f.code) + ")"
    ensures f.MissingCsv? ==> r == FailurePrefix + "Missing CSV output: " + f.path
    ensures f.SevereErrors? ==> r == FailurePrefix + "EnergyPlus reported severe errors:\n" + f.excerpt
  {
    match f
    case Timeout => TimeoutText
    case ProbeFailed(reason) => FailurePrefix + reason
    case InputMissing(p) => FailurePrefix + "Input file not found: " + p
    case LaunchFailed(reason) => FailurePrefix + reason
    case NonZeroExit(code) => FailurePrefix + "EnergyPlus failed (code " + Text.IntToDecimal(code) + ")"
    case MissingCsv(p) => FailurePrefix + "Missing CSV output: " + p
    case SevereErrors(e) => FailurePrefix + "EnergyPlus reported severe errors:\n" + e
  }

  /** Every failure but the timeout is re-raised with the generic prefix; the timeout is not. */
  lemma MessagePrefix(f: Failure)
    ensures FailurePrefix <= Message(f) <==> !f.Timeout?
  {
    if f.Timeout? {
      assert Message(f)[0] == 'E' != FailurePrefix[0];
    }
  }

  /** Only the timeout produces the timeout text. */
  lemma TimeoutTextIsTimeout(f: Failure)
    ensures Message(f) == TimeoutText <==> f.Timeout?
  {
    MessagePrefix(f);
    MessagePrefix(Timeout);
  }

  /** How a job ends: the directory it returns, or the exception text. */
  datatype Outcome = Completed(dir: string) | Raised(message: string)

  /** The job: the outcome, the engine command if it got as far as launching one, and the
      job directory's files at the end. */
  datatype Job = Job(outcome: Outcome, invoked: Option<seq<string>>, files: seq<File>)

  /** Judges a finished engine run: exit code, then the CSV, then the error log (read as text). */
  function Judge(tmpDir: string, code: int, after: seq<File>): (r: Option<Failure>)
    ensures r.None? <==> code == 0 && Lookup(after, CsvName).Some? && !Results.SevereLogged(after)
    ensures code != 0 ==> r == Some(NonZeroExit(code))
    ensures code == 0 && Lookup(after, CsvName).None? ==> r == Some(MissingCsv(JoinPath(tmpDir, CsvName)))
    ensures code == 0 && Lookup(after, CsvName).Some? && Results.SevereLogged(after) ==>
      r == Some(SevereErrors(Results.Excerpt(Results.ErrorLog(after).value)))
  {
    if code != 0 then Some(NonZeroExit(code))
    else if Lookup(after, CsvName).None? then Some(MissingCsv(JoinPath(tmpDir, CsvName)))
    else if Results.SevereLogged(after) then Some(SevereErrors(Results.Excerpt(Results.ErrorLog(after).value)))
    else None
  }

  /** `run_simulation(idf_path, tmp_dir, weather_path, energyplus_path)`; `existing` is the set of
      paths that exist when the inputs are checked and `before` the job directory's files then. */
  function RunSimulation(idfPath: string, tmpDir: string, weatherPath: string, override: Option<string>,
                         env: Option<string>, probe: Probe, existing: set<string>, before: seq<File>,
                         engine: EngineRun): (r: Job)
    ensures r.invoked.Some? <==> probe.ProbeRan? && idfPath in existing && weatherPath in existing
    ensures r.invoked.Some? ==> r.invoked.value == Command(ResolveExe(override, env), weatherPath, tmpDir, idfPath)
    ensures r.invoked.None? ==> r.files == before && r.outcome.Raised?
    ensures probe.ProbeRaised? ==> r.outcome == Raised(Message(ProbeFailed(probe.reason)))
    ensures probe.ProbeRan? && idfPath !in existing ==> r.outcome == Raised(Message(InputMissing(idfPath)))
    ensures probe.ProbeRan? && idfPath in existing && weatherPath !in existing ==>
      r.outcome == Raised(Message(InputMissing(weatherPath)))
    ensures r.invoked.Some? && engine.LaunchRaised? ==> r.outcome == Raised(Message(LaunchFailed(engine.reason)))
    ensures r.invoked.Some? && engine.TimedOut? ==> r.outcome == Raised(TimeoutText)
    ensures r.invoked.Some? && engine.Exited? && Judge(tmpDir, engine.code, engine.after).Some? ==>
      r.outcome == Raised(Message(Judge(tmpDir, engine.code, engine.after).value))
    ensures r.outcome.Completed? <==> (r.invoked.Some? && engine.Exited? && engine.code == 0
      && Lookup(engine.after, CsvName).Some? && !Results.SevereLogged(engine.after))
    ensures r.outcome.Completed? ==> r.outcome.dir == tmpDir && r.files == Put(engine.after, File(MarkerName, MarkerText))
    ensures r.outcome.Raised? && r.invoked.Some? ==>
      r.files == (match engine case LaunchRaised(_) => before case TimedOut(p) => p case Exited(_, a) => a)
    ensures r.outcome.Raised? ==> (r.outcome.message == TimeoutText <==> r.invoked.Some? && engine.TimedOut?)
  {
    if probe.ProbeRaised? then
      TimeoutTextIsTimeout(ProbeFailed(probe.reason));
      Job(Raised(Message(ProbeFailed(probe.reason))), None, before)
    else if idfPath !in existing then
      TimeoutTextIsTimeout(InputMissing(idfPath));
      Job(Raised(Message(InputMissing(idfPath))), None, before)
    else if weatherPath !in existing then
      TimeoutTextIsTimeout(InputMissing(weatherPath));
      Job(Raised(Message(InputMissing(weatherPath))), None, before)
    else
      var cmd := Command(ResolveExe(override, env), weatherPath, tmpDir, idfPath);
      match engine
      case LaunchRaised(reason) =>
        TimeoutTextIsTimeout(LaunchFailed(reason));
        Job(Raised(Message(LaunchFailed(reason))), Some(cmd), before)
      case TimedOut(partial) => Job(Raised(Message(Timeout)), Some(cmd), partial)
      case Exited(code, after) =>
        match Judge(tmpDir, code, after)
        case Some(f) =>
          TimeoutTextIsTimeout(f);
          Job(Raised(Message(f)), Some(cmd), after)
        case None => Job(Completed(tmpDir), Some(cmd), Put(after, File(MarkerName, MarkerText)))
  }
}

=== FILE: simulate.dfy ===
/**
 * The submission handler (`simulate` in backend/app/main.py): save the weather file, then take
 * the uploaded model if there is one, or else synthesise one from the three dimensions and
 * translate it; on success schedule exactly one background run and answer with the run id.
 *
 * The identifier, the file writes, the exceptions of the OpenStudio calls, the weather binding,
 * the translator's messages and text, and the result of saving the translation are parameters.
 * The job directory starts out empty.
 */
module Simulate {
  import opened Wrappers
  import opened Workspace
  import ModelBuilder

  const DimensionsMissing := "Provide either an IDF file or all three dimensions (length, width, height)."
  const TranslationPrefix := "Translation error: "

  /** The request: the uploaded model (if any), the weather file, and the three optional sizes. */
  datatype Form = Form(idf: Option<string>, weather: string,
                       length: Option<real>, width: Option<real>, height: Option<real>)

  /** How a file write went: written, or an `OSError` with its text. */
  datatype Write = Written | WriteFailed(reason: string)

  /** What the library calls outside this module did:
      - the weather file write and the uploaded model write;
      - `buildRaised`: the text of a `RuntimeError` or `OSError` raised while `build_model`
        creates the space, zone, surfaces, material, construction and output variable, which
        happens before the weather file is loaded;
      - whether the weather file loads and binds;
      - `translateRaised`: the text of a `RuntimeError` or `OSError` raised by creating the
        translator or by `translateModel`;
      - the translator's error messages, the translated text and whether saving it worked. */
  datatype Effects = Effects(weatherWrite: Write, idfWrite: Write, buildRaised: Option<string>,
                             loads: bool, binds: bool, translateRaised: Option<string>,
                             translatorErrors: seq<string>, translated: string, saved: bool)

  /** A scheduled call `run_simulation(idf_path, tmp_dir, weather_path)`. */
  datatype Task = Task(idfPath: string, tmpDir: string, weatherPath: string)

  datatype Response = Accepted(runId: string, status: string) | HttpError(code: int, detail: string)

  /** The answer, the job directory's files afterwards, and the background tasks queued. */
  datatype Reply = Reply(response: Response, files: seq<File>, tasks: seq<Task>)

  predicate AllDimensions(form: Form) {
    form.length.Some? && form.width.Some? && form.height.Some?
  }

  /** The paths the handler derives from the run id. */
  function TaskFor(runId: string): (t: Task)
    ensures t.tmpDir == "/tmp/" + runId
    ensures t.idfPath == t.tmpDir + "/" + InputName && t.weatherPath == t.tmpDir + "/" + WeatherName
  {
    Task(JoinPath(JobDir(runId), InputName), JobDir(runId), JoinPath(JobDir(runId), WeatherName))
  }

  /** The synthesised branch's failure, if any, in the order the calls happen: creating the
      model's objects, loading and binding the weather file (always attempted, its path never
      being empty), translating, then the translator's first reported error. */
  function SynthesisFailure(form: Form, weatherPath: string, fx: Effects): (r: Option<string>)
    requires AllDimensions(form) && weatherPath != ""
    ensures r.None? <==> (fx.buildRaised.None? && fx.loads && fx.binds && fx.translateRaised.None?
                          && |fx.translatorErrors| == 0)
    ensures fx.buildRaised.Some? ==> r == fx.buildRaised
    ensures fx.buildRaised.None? && !fx.loads ==> r == Some(ModelBuilder.LoadFailed)
    ensures fx.buildRaised.None? && fx.loads && !fx.binds ==> r == Some(ModelBuilder.BindFailed)
    ensures fx.buildRaised.None? && fx.loads && fx.binds && fx.translateRaised.Some? ==> r == fx.translateRaised
    ensures (fx.buildRaised.None? && fx.loads && fx.binds && fx.translateRaised.None?
             && |fx.translatorErrors| > 0) ==> r == Some(TranslationPrefix + fx.translatorErrors[0])
  {
    if fx.buildRaised.Some? then fx.buildRaised
    else
      match ModelBuilder.BuildModel(form.length.value, form.width.value, form.height.value,
                                    Some(weatherPath), fx.loads, fx.binds)
      case BuildFailed(message) => Some(message)
      case Built(_) =>
        if fx.translateRaised.Some? then fx.translateRaised
        else if |fx.translatorErrors| > 0 then Some(TranslationPrefix + fx.translatorErrors[0])
        else None
  }

  function Submit(form: Form, runId: string, fx: Effects): (r: Reply)
    ensures r.response.Accepted? <==> (fx.weatherWrite.Written?
      && (form.idf.Some? ==> fx.idfWrite.Written?)
      && (form.idf.None? ==> (AllDimensions(form) && fx.buildRaised.None? && fx.loads && fx.binds
                              && fx.translateRaised.None? && |fx.translatorErrors| == 0)))
    ensures r.response.Accepted? ==> r.response == Accepted(runId, "running") && r.tasks == [TaskFor(runId)]
    ensures r.response.HttpError? ==> r.tasks == [] && r.response.code in {400, 500}
    ensures r.response.HttpError? && r.response.code == 400 <==>
      (fx.weatherWrite.Written? && form.idf.None? && !AllDimensions(form))
    ensures r.response.HttpError? && r.response.code == 400 ==> r.response.detail == DimensionsMissing
    ensures fx.weatherWrite.WriteFailed? ==> r == Reply(HttpError(500, fx.weatherWrite.reason), [], [])
    ensures fx.weatherWrite.Written? && form.idf.Some? && fx.idfWrite.WriteFailed? ==>
      r.response == HttpError(500, fx.idfWrite.reason)
    ensures (fx.weatherWrite.Written? && form.idf.None? && AllDimensions(form)
             && SynthesisFailure(form, TaskFor(runId).weatherPath, fx).Some?) ==>
      r.response == HttpError(500, SynthesisFailure(form, TaskFor(runId).weatherPath, fx).value)
    ensures fx.weatherWrite.Written? ==> Lookup(r.files, WeatherName) == Some(form.weather)
    ensures fx.weatherWrite.Written? && form.idf.Some? && fx.idfWrite.Written? ==>
      Lookup(r.files, InputName) == form.idf
    ensures r.response.HttpError? && r.response.code == 400 ==> Lookup(r.files, InputName).None?
    ensures form.idf.None? && !r.response.Accepted? ==> Lookup(r.files, InputName).None?
    ensures form.idf.None? && r.response.Accepted? ==>
      Lookup(r.files, InputName) == (if fx.saved then Some(fx.translated) else None)
  {
    var task := TaskFor(runId);
    match fx.weatherWrite
    case WriteFailed(reason) => Reply(HttpError(500, reason), [], [])
    case Written =>
      var files := [File(WeatherName, form.weather)];
      if form.idf.Some? then
        match fx.idfWrite
        case WriteFailed(reason) => Reply(HttpError(500, reason), files, [])
        case Written =>
          Reply(Accepted(runId, "running"), files + [File(InputName, form.idf.value)], [task])
      else if !AllDimensions(form) then Reply(HttpError(400, DimensionsMissing), files, [])
      else
        match SynthesisFailure(form, task.weatherPath, fx)
        case Some(detail) => Reply(HttpError(500, detail), files, [])
        case None =>
          var saved := if fx.saved then files + [File(InputName, fx.translated)] else files;
          Reply(Accepted(runId, "running"), saved, [task])
  }

  /** An uploaded model wins: the sizes and everything about synthesis are then ignored. */
  lemma UploadIgnoresDimensions(form: Form, runId: string, fx: Effects, length: Option<real>,
                                width: Option<real>, height: Option<real>, buildRaised: Option<string>,
                                loads: bool, binds: bool, translateRaised: Option<string>,
                                errors: seq<string>, translated: string, saved: bool)
    requires form.idf.Some?
    ensures Submit(form.(length := length, width := width, height := height), runId,
                   fx.(buildRaised := buildRaised, loads := loads, binds := binds,
                       translateRaised := translateRaised, translatorErrors := errors,
                       translated := translated, saved := saved))
         == Submit(form, runId, fx)
  {
  }
}

=== FILE: text.dfy ===
/** String operations the backend (Python) and the frontend (JavaScript) rely on. */
module Text {

  /** Python's `needle in s` and JavaScript's `s.includes(needle)`: a contiguous occurrence. */
  predicate Contains(s: string, needle: string) {
    exists i :: 0 <= i <= |s| - |needle| && OccursAt(s, needle, i)
  }

  /** `needle` starts at position `i` of `s`. */
  predicate OccursAt(s: string, needle: string, i: int) {
    0 <= i && i + |needle| <= |s| && s[i..i + |needle|] == needle
  }

  /** Python's `s[:n]` for `n >= 0`. */
  function Take(s: string, n: nat): (r: string)
    ensures |r| == if |s| < n then |s| else n
    ensures r <= s
  {
    if |s| <= n then s else s[..n]
  }

  /** Python's text-mode reading (universal newlines): "\r\n" and a lone "\r" each become "\n",
      everything else is kept. */
  function UniversalNewlines(s: string): (r: string)
    ensures '\r' !in r
    ensures |r| <= |s|
    decreases |s|
  {
    if |s| == 0 then ""
    else if s[0] != '\r' then [s[0]] + UniversalNewlines(s[1..])
    else if |s| > 1 && s[1] == '\n' then "\n" + UniversalNewlines(s[2..])
    else "\n" + UniversalNewlines(s[1..])
  }

  /** A character other than a carriage return is read as it is. */
  lemma PlainChar(c: char, u: string)
    requires c != '\r'
    ensures UniversalNewlines([c] + u) == [c] + UniversalNewlines(u)
  {
    assert ([c] + u)[1..] == u;
  }

  /** Text without carriage returns is read as it is, whatever follows it. */
  lemma {:induction false} PlainPrefix(line: string, t: string)
    requires '\r' !in line
    ensures UniversalNewlines(line + t) == line + UniversalNewlines(t)
    decreases |line|
  {
    if |line| == 0 {
      assert line + t == t;
    } else {
      var c, more := line[0], line[1..];
      assert line == [c] + more;
      PlainPrefix(more, t);
      calc {
        UniversalNewlines(line + t);
        { assert line + t == [c] + (more + t); }
        UniversalNewlines([c] + (more + t));
        { PlainChar(c, more + t); }
        [c] + UniversalNewlines(more + t);
        [c] + (more + UniversalNewlines(t));
        line + UniversalNewlines(t);
      }
    }
  }

  /** Text without carriage returns is read unchanged. */
  lemma ReadAsItIs(s: string)
    requires '\r' !in s
    ensures UniversalNewlines(s) == s
  {
    PlainPrefix(s, "");
    assert s + "" == s;
  }

  lemma CrLfStep(rest: string)
    ensures UniversalNewlines("\r\n" + rest) == "\n" + UniversalNewlines(rest)
  {
    var s := "\r\n" + rest;
    assert s[0] == '\r' && s[1] == '\n' && s[2..] == rest;
  }

  lemma LoneCrStep(rest: string)
    requires |rest| == 0 || rest[0] != '\n'
    ensures UniversalNewlines("\r" + rest) == "\n" + UniversalNewlines(rest)
  {
    var s := "\r" + rest;
    assert s[0] == '\r' && s[1..] == rest && !(|s| > 1 && s[1] == '\n');
  }

  /** A line ended by "\r\n" reads as the same line ended by a single "\n". */
  lemma CrLfIsOneBreak(line: string, rest: string)
    requires '\r' !in line
    ensures UniversalNewlines(line + "\r\n" + rest) == line + "\n" + UniversalNewlines(rest)
  {
    var tail := "\r\n" + rest;
    calc {
      UniversalNewlines(line + "\r\n" + rest);
      { assert line + "\r\n" + rest == line + tail; }
      UniversalNewlines(line + tail);
      { PlainPrefix(line, tail); }
      line + UniversalNewlines(tail);
      { CrLfStep(rest); }
      line + ("\n" + UniversalNewlines(rest));
      line + "\n" + UniversalNewlines(rest);
    }
  }

  /** A line ended by a lone "\r" also reads as the same line ended by "\n". */
  lemma LoneCrIsOneBreak(line: string, rest: string)
    requires '\r' !in line
    requires |rest| == 0 || rest[0] != '\n'
    ensures UniversalNewlines(line + "\r" + rest) == line + "\n" + UniversalNewlines(rest)
  {
    var tail := "\r" + rest;
    calc {
      UniversalNewlines(line + "\r" + rest);
      { assert line + "\r" + rest == line + tail; }
      UniversalNewlines(line + tail);
      { PlainPrefix(line, tail); }
      line + UniversalNewlines(tail);
      { LoneCrStep(rest); }
      line + ("\n" + UniversalNewlines(rest));
      line + "\n" + UniversalNewlines(rest);
    }
  }

  /** Python's `sep.join(parts)`. */
  function JoinWith(sep: string, parts: seq<string>): string
  {
    if |parts| == 0 then ""
    else if |parts| == 1 then parts[0]
    else parts[0] + sep + JoinWith(sep, parts[1..])
  }

  /** JavaScript's `s.split(c)` for a one-character separator: never empty, no piece holds `c`. */
  function SplitOn(s: string, c: char): (r: seq<string>)
    ensures |r| >= 1
    ensures forall k :: 0 <= k < |r| ==> c !in r[k]
  {
    if |s| == 0 then [""]
    else
      var rest := SplitOn(s[1..], c);
      if s[0] == c then [""] + rest else [[s[0]] + rest[0]] + rest[1..]
  }

  lemma JoinPrepend(sep: string, x: string, parts: seq<string>)
    requires |parts| >= 1
    ensures JoinWith(sep, [x + parts[0]] + parts[1..]) == x + JoinWith(sep, parts)
  {
    var ps := [x + parts[0]] + parts[1..];
    if |parts| > 1 {
      assert ps[1..] == parts[1..];
    }
  }

  /** Joining the pieces of a split with the separator gives the original text back. */
  lemma {:induction false} SplitThenJoin(s: string, c: char)
    ensures JoinWith([c], SplitOn(s, c)) == s
  {
    if |s| > 0 {
      var rest := SplitOn(s[1..], c);
      SplitThenJoin(s[1..], c);
      if s[0] == c {
        assert ([""] + rest)[1..] == rest;
        assert s == [c] + s[1..];
      } else {
        JoinPrepend([c], [s[0]], rest);
        assert s == [s[0]] + s[1..];
      }
    }
  }

  lemma {:induction false} SplitPiece(p: string, c: char, t: string)
    requires c !in p
    ensures SplitOn(p + [c] + t, c) == [p] + SplitOn(t, c)
    ensures SplitOn(p, c) == [p]
  {
    if |p| > 0 {
      assert (p + [c] + t)[1..] == p[1..] + [c] + t;
      SplitPiece(p[1..], c, t);
      assert [p[0]] + p[1..] == p;
    } else {
      assert p + [c] + t == [c] + t;
    }
  }

  /** Splitting a join of separator-free pieces gives the pieces back. */
  lemma {:induction false} JoinThenSplit(parts: seq<string>, c: char)
    requires |parts| >= 1
    requires forall k :: 0 <= k < |parts| ==> c !in parts[k]
    ensures SplitOn(JoinWith([c], parts), c) == parts
  {
    if |parts| == 1 {
      SplitPiece(parts[0], c, "");
    } else {
      JoinThenSplit(parts[1..], c);
      SplitPiece(parts[0], c, JoinWith([c], parts[1..]));
      assert [parts[0]] + parts[1..] == parts;
    }
  }

  /** ECMAScript's WhiteSpace and LineTerminator characters, which `String.prototype.trim` removes. */
  predicate IsJsSpace(ch: char) {
    || ch == '\t' || ch == '\n' || ch == '\U{000B}' || ch == '\U{000C}' || ch == '\r' || ch == ' '
    || ch == '\U{00A0}' || ch == '\U{1680}' || ('\U{2000}' <= ch <= '\U{200A}')
    || ch == '\U{2028}' || ch == '\U{2029}' || ch == '\U{202F}' || ch == '\U{205F}'
    || ch == '\U{3000}' || ch == '\U{FEFF}'
  }

  /** Drops the leading white space, and nothing else. */
  function TrimStart(s: string): (r: string)
    ensures |r| <= |s| && r == s[|s| - |r|..]
    ensures forall i :: 0 <= i < |s| - |r| ==> IsJsSpace(s[i])
    ensures |r| > 0 ==> !IsJsSpace(r[0])
  {
    if |s| > 0 && IsJsSpace(s[0]) then TrimStart(s[1..]) else s
  }

  /** Drops the trailing white space, and nothing else. */
  function TrimEnd(s: string): (r: string)
    ensures |r| <= |s| && r == s[..|r|]
    ensures forall i :: |r| <= i < |s| ==> IsJsSpace(s[i])
    ensures |r| > 0 ==> !IsJsSpace(r[|r| - 1])
  {
    if |s| > 0 && IsJsSpace(s[|s| - 1]) then TrimEnd(s[..|s| - 1]) else s
  }

  /** JavaScript's `s.trim()`. */
  function Trim(s: string): string {
    TrimEnd(TrimStart(s))
  }

  /** A line is falsy after trimming exactly when every character of it is white space. */
  lemma TrimEmptyIffBlank(s: string)
    ensures Trim(s) == "" <==> forall i :: 0 <= i < |s| ==> IsJsSpace(s[i])
  {
  }

  function DigitChar(d: nat): (ch: char)
    requires d < 10
    ensures '0' <= ch <= '9'
  {
    ['0', '1', '2', '3', '4', '5', '6', '7', '8', '9'][d]
  }

  /** The value of a string of decimal digits. */
  function DecimalValue(s: string): nat
  {
    if |s| == 0 then 0
    else
      var last := s[|s| - 1];
      DecimalValue(s[..|s| - 1]) * 10 + (if '0' <= last <= '9' then last as int - '0' as int else 0)
  }

  /** Python's `str(n)` for a natural number: the shortest decimal spelling. */
  function NatToDecimal(n: nat): (r: string)
    ensures |r| >= 1
    ensures forall i :: 0 <= i < |r| ==> '0' <= r[i] <= '9'
    ensures |r| > 1 ==> r[0] != '0'
  {
    if n < 10 then [DigitChar(n)] else NatToDecimal(n / 10) + [DigitChar(n % 10)]
  }

  lemma {:induction false} DecimalRoundTrip(n: nat)
    ensures DecimalValue(NatToDecimal(n)) == n
  {
    var r := NatToDecimal(n);
    if n < 10 {
      assert r[..0] == "";
    } else {
      DecimalRoundTrip(n / 10);
      assert r[..|r| - 1] == NatToDecimal(n / 10);
    }
  }

  /** Python's `str(i)` for an integer: a minus sign, then the digits of the magnitude. */
  function IntToDecimal(i: int): string
  {
    if i < 0 then "-" + NatToDecimal(-i) else NatToDecimal(i)
  }
}

=== FILE: workspace.dfy ===
/**
 * A job's workspace directory `/tmp/<run id>`, seen as a snapshot: whether it exists and, if it
 * does, its files in the order the operating system lists them.
 */
module Workspace {
  import opened Wrappers

  datatype File = File(name: string, content: string)

  datatype Snapshot = Missing | Present(files: seq<File>)

  const InputName := "input.idf"
  const WeatherName := "weather.epw"
  const CsvName := "eplusout.csv"
  const ErrName := "eplusout.err"
  const MarkerName := "done.txt"
  const MarkerText := "done"

  /** `os.path.join(dir, name)` for a relative `name` and a `dir` without a trailing slash. */
  function JoinPath(dir: string, name: string): string {
    dir + "/" + name
  }

  /** The directory of the job `runId`. */
  function JobDir(runId: string): string {
    JoinPath("/tmp", runId)
  }

  /** `os.listdir`: the names, in listing order. */
  function Names(files: seq<File>): (r: seq<string>)
    ensures |r| == |files|
    ensures forall i :: 0 <= i < |files| ==> r[i] == files[i].name
  {
    seq(|files|, i requires 0 <= i < |files| => files[i].name)
  }

  /** The content of the file called `name`, if there is one. */
  function Lookup(files: seq<File>, name: string): (r: Option<string>)
    ensures r.None? <==> forall i :: 0 <= i < |files| ==> files[i].name != name
    ensures r.Some? ==> exists i :: 0 <= i < |files| && files[i] == File(name, r.value)
  {
    if |files| == 0 then None
    else if files[0].name == name then Some(files[0].content)
    else Lookup(files[1..], name)
  }

  /** `Path(...).write_text`: overwrites the file if it exists, creates it otherwise. */
  function Put(files: seq<File>, f: File): (r: seq<File>)
    ensures f in r
    ensures f.name !in Names(files) ==> r == files + [f]
    ensures f.name in Names(files) ==> |r| == |files|
    decreases |files|
  {
    if |files| == 0 then [f]
    else if files[0].name == f.name then [f] + files[1..]
    else [files[0]] + Put(files[1..], f)
  }

  /** After writing, the file has the new content and every other file is as it was. */
  lemma {:induction false} PutLookup(files: seq<File>, f: File, n: string)
    ensures Lookup(Put(files, f), n) == (if n == f.name then Some(f.content) else Lookup(files, n))
    decreases |files|
  {
    if |files| > 0 {
      var r := Put(files, f);
      assert r[1..] == (if files[0].name == f.name then files[1..] else Put(files[1..], f));
      if files[0].name != f.name {
        PutLookup(files[1..], f, n);
      }
    }
  }

  /** The absolute paths of the files in directory `dir`. */
  function Paths(dir: string, files: seq<File>): set<string> {
    set i | 0 <= i < |files| :: JoinPath(dir, files[i].name)
  }
}

=== FILE: wrappers.dfy ===
/** Optional values: Python's `None`, JavaScript's `undefined`/`null`. */
module Wrappers {

  datatype Option<+T> = None | Some(value: T) {

    /** The wrapped value, or `default` when there is none. */
    function GetOr(default: T): T {
      match this
      case Some(v) => v
      case None => default
    }
  }

  /** The present values, in order: a `filter` that keeps what it keeps unchanged. */
  function Somes<T>(xs: seq<Option<T>>): (r: seq<T>)
    ensures |r| <= |xs|
    decreases |xs|
  {
    if |xs| == 0 then []
    else (if xs[0].Some? then [xs[0].value] else []) + Somes(xs[1..])
  }

  /** Adds one to every position. */
  function Shift(idx: seq<nat>): (r: seq<nat>)
    ensures |r| == |idx|
    ensures forall j :: 0 <= j < |idx| ==> r[j] == idx[j] + 1
  {
    seq(|idx|, j requires 0 <= j < |idx| => idx[j] + 1)
  }

  /** The positions `Somes` keeps. */
  function SomeIndices<T>(xs: seq<Option<T>>): seq<nat>
    decreases |xs|
  {
    if |xs| == 0 then []
    else if xs[0].Some? then [0] + Shift(SomeIndices(xs[1..]))
    else Shift(SomeIndices(xs[1..]))
  }

  lemma {:induction false} IndicesLength<T>(xs: seq<Option<T>>)
    ensures |SomeIndices(xs)| == |Somes(xs)|
    decreases |xs|
  {
    if |xs| > 0 {
      IndicesLength(xs[1..]);
    }
  }

  /** Each kept position holds the value kept there. */
  lemma {:induction false} IndicesHit<T>(xs: seq<Option<T>>)
    ensures |SomeIndices(xs)| == |Somes(xs)|
    ensures forall j :: 0 <= j < |SomeIndices(xs)| ==>
      SomeIndices(xs)[j] < |xs| && xs[SomeIndices(xs)[j]] == Some(Somes(xs)[j])
    decreases |xs|
  {
    IndicesLength(xs);
    if |xs| > 0 {
      var tail := xs[1..];
      IndicesHit(tail);
      var rest := SomeIndices(tail);
      if xs[0].Some? {
        assert Somes(xs) == [xs[0].value] + Somes(tail);
        forall j | 0 < j < |SomeIndices(xs)|
          ensures SomeIndices(xs)[j] < |xs| && xs[SomeIndices(xs)[j]] == Some(Somes(xs)[j])
        {
          assert SomeIndices(xs)[j] == rest[j - 1] + 1;
          assert xs[rest[j - 1] + 1] == tail[rest[j - 1]];
        }
      } else {
        assert Somes(xs) == Somes(tail);
        forall j | 0 <= j < |SomeIndices(xs)|
          ensures SomeIndices(xs)[j] < |xs| && xs[SomeIndices(xs)[j]] == Some(Somes(xs)[j])
        {
          assert xs[rest[j] + 1] == tail[rest[j]];
        }
      }
    }
  }

  lemma {:induction false} IndicesIncreasing<T>(xs: seq<Option<T>>)
    ensures forall i, j :: 0 <= i < j < |SomeIndices(xs)| ==> SomeIndices(xs)[i] < SomeIndices(xs)[j]
    decreases |xs|
  {
    if |xs| > 0 {
      IndicesIncreasing(xs[1..]);
    }
  }

  /** Every present entry is kept. */
  lemma {:induction false} IndicesCover<T>(xs: seq<Option<T>>)
    ensures forall k :: 0 <= k < |xs| && xs[k].Some? ==> k in SomeIndices(xs)
    decreases |xs|
  {
    if |xs| > 0 {
      var tail := xs[1..];
      IndicesCover(tail);
      var rest := SomeIndices(tail);
      var shifted := Shift(rest);
      forall k | 1 <= k < |xs| && xs[k].Some?
        ensures k in shifted
      {
        assert tail[k - 1].Some?;
        var j :| 0 <= j < |rest| && rest[j] == k - 1;
        assert shifted[j] == k;
      }
    }
  }

  /** `Somes` is an order-preserving filter: the kept positions are increasing, each holds the
      value kept there, and every present entry is kept. */
  lemma SomeIndicesSpec<T>(xs: seq<Option<T>>)
    ensures |SomeIndices(xs)| == |Somes(xs)|
    ensures forall j :: 0 <= j < |SomeIndices(xs)| ==>
      SomeIndices(xs)[j] < |xs| && xs[SomeIndices(xs)[j]] == Some(Somes(xs)[j])
    ensures forall i, j :: 0 <= i < j < |SomeIndices(xs)| ==> SomeIndices(xs)[i] < SomeIndices(xs)[j]
    ensures forall k :: 0 <= k < |xs| && xs[k].Some? ==> k in SomeIndices(xs)
  {
    IndicesHit(xs);
    IndicesIncreasing(xs);
    IndicesCover(xs);
  }
}
